=== FILE: README.md ===
# StudKemp front-end — a Dafny model of its deterministic core

StudKemp is a React front-end for an AI company-analysis service. The user asks a question in a
chat. A simulated analysis follows, then an analysis screen with a heat map of the Russian
regions. That screen can be exported to PDF. This project models, in Dafny, the parts of the
front-end that are plain logic, and proves what they promise:

- `regions.dfy` (`Regions`): the heat map's region table and the API client's region-name to
  map-code table. Covers lookups in both tables, the consistency between them, and the name
  lookup as JavaScript really performs it on an object literal.
- `heatmap.dfy` (`Heatmap`): the styling pass over the map's region paths (highlight, data
  colour, no-data colour), the hover enter/leave transitions, and how the SVG root's `viewBox`
  and size are fitted.
- `pdf_export.dfy` (`PdfExport`): the PDF export. Covers the header, the pagination of the
  screenshot over pages of a given size, the textual fallback with its page-break rule (also when
  drawing the screenshot fails part-way), the
  `Страница i из N` footers, the file name and how failures surface.
- `api.dfy` (`Api`): the API records, how search and analysis requests turn HTTP results into a
  value or one fixed error message, the news request that never fails, and the sign rule of
  the percentage format.
- `chat.dfy` (`Chat`): the chat form's submit guard, the send button and the example prompts.
- `app.dfy` (`App`): the application's three screens and its conversation as a state machine,
  with an invariant over every reachable state.
- `loading.dfy` (`Loading`): the loading screen's rotating status text.
- `text.dfy` (`Text`), `wrappers.dfy` (`Wrappers`), `palette.dfy` (`Palette`): the JavaScript
  string built-ins the code relies on (`trim`, `startsWith`, `split(c)[0]`, decimal rendering),
  `Option`/promise outcomes, and the map's colours.

Browser and library calls become parameters or inputs:
- the result of each `fetch`;
- the page size jsPDF reports;
- the captured canvas size;
- jsPDF's line splitter;
- the formatted date and ISO timestamp;
- whether a PDF library call outside the screenshot block throws, and at which step, if any, the
  screenshot block's drawing throws.

## Model

| member | source | states |
|---|---|---|
| Regions.Find | src/components/russia-heatmap.tsx:153 | looking up a path id in the heat-map table yields nothing exactly when no entry has that id, and otherwise an entry of the table with that id |
| Regions.RegionCode | src/lib/api.ts:147-235 | the intended `getRegionCode` (the code as written differs on 12 inherited names; see Findings) yields no code exactly when none of the 83 listed names equals the input, and otherwise the code listed with that very name |
| Regions.RegionCodeIsHeatKey | src/lib/api.ts:147-235 | every code the name lookup returns starts with `RU-`, is a key of the heat-map table, and an entry with that key carries the looked-up name |
| Regions.RegionCodeDefinedIffHeatName | src/components/russia-heatmap.tsx:20-104 | a name has a map code exactly when it is the name of some heat-map entry |
| Regions.HeatRowIsRussianRegion | src/components/russia-heatmap.tsx:20-104 | every heat-map entry has an `RU-` id, a name whose first character is in the Cyrillic block (U+0400 to U+04FF), and a colour different from the highlight, hover and no-data colours |
| Regions.FoundEntryIsRegion | src/components/russia-heatmap.tsx:153 | an entry found under an id carries that id, an `RU-` prefix and a colour distinct from the three interaction colours |
| Regions.RegionCodeAsWritten | src/lib/api.ts:234 | the object-literal lookup as JavaScript performs it: an own row's code, else an inherited `Object.prototype` member for its names, else `null` |
| Regions.AsWrittenAgreesOffPrototype | src/lib/api.ts:234 | for every name that is not an `Object.prototype` member, the lookup as written returns exactly what the corrected lookup returns |
| Regions.PrototypeNameIsNotARegion | src/lib/api.ts:234 | a name such as `constructor` or `toString` is no region, yet the lookup as written returns the inherited member instead of `null` |
| Heatmap.StylePath | src/components/russia-heatmap.tsx:151-187 | styling keeps the path's id and always sets fill, stroke and stroke width; a highlighted path gets stroke `#dc2626` and the highlight style; any other path gets stroke `#374151` and width `0.5`, plus the pointer style when it has table data, and otherwise keeps its own style |
| Heatmap.HighlightLookIffHighlighted | src/components/russia-heatmap.tsx:156-165 | a path gets the highlight fill, and separately the highlight width, exactly when its id equals a non-empty highlighted id, with or without table data |
| Heatmap.FillShowsData | src/components/russia-heatmap.tsx:166-185 | a non-highlighted path shows its entry's colour when it has one, and the no-data grey exactly when it is not highlighted and has no entry |
| Heatmap.PlainLookIgnoresHighlight | src/components/russia-heatmap.tsx:156 | a path that is not highlighted looks the same whatever else is highlighted, including no highlight at all |
| Heatmap.StylePass | src/components/russia-heatmap.tsx:149-187 | only paths with an `RU-` id are styled; every other path is left as it was |
| Heatmap.StylePassIdempotent | src/components/russia-heatmap.tsx:149-187 | running the styling pass twice gives the same paths as running it once |
| Heatmap.Render | src/components/russia-heatmap.tsx:149-187 | the map as first shown keeps the number of paths, styles each path with an `RU-` id exactly as `StylePath` does, leaves every other path as it was, and hovers nothing |
| Heatmap.Enter | src/components/russia-heatmap.tsx:229-242 | mouse-enter on a path with table data hovers that entry and changes no other path; the path turns to fill `#fbbf24` and width `1` unless it is highlighted, in which case it stays as it was; a path without data has no handler and nothing changes |
| Heatmap.Leave | src/components/russia-heatmap.tsx:244-256 | mouse-leave clears the hovered entry and changes no other path |
| Heatmap.EnterPreservesShown | src/components/russia-heatmap.tsx:231-242 | after mouse-enter every path still shows its styled look or its hover look, and a non-highlighted hovered path shows exactly its styled look with the hover fill and width, whatever it showed before |
| Heatmap.LeaveRestoresStyle | src/components/russia-heatmap.tsx:244-256 | mouse-leave restores the path to exactly what the styling pass assigned |
| Heatmap.EnterLeaveRoundTrip | src/components/russia-heatmap.tsx:231-256 | entering and then leaving a freshly styled path gives back the styled map |
| Heatmap.HoverKeepsHighlight | src/components/russia-heatmap.tsx:236-251 | hovering a highlighted path changes neither its fill nor its width, on enter or on leave |
| Heatmap.FitRoot | src/components/russia-heatmap.tsx:193-213 | an existing `viewBox` is kept and one is always set; width becomes `100%`, height is removed, and the aspect and style are fixed |
| Heatmap.DerivedViewBoxBySide | src/components/russia-heatmap.tsx:194-206 | without a `viewBox`, the derived one is `0 0 w h`, where each side is the root's own value when that is set and either `geoViewBox` or the other side is set, and the default 1224 or 760 otherwise |
| Heatmap.FitRootIdempotent | src/components/russia-heatmap.tsx:193-213 | fitting an already fitted root changes nothing |
| PdfExport.Header | src/lib/pdf-export.ts:19-33 | the header has four operations and its second line reads `Запрос: ` followed by the query |
| PdfExport.PageCount | src/lib/pdf-export.ts:57-85 | the screenshot is spread over the fewest pages after which no height is left |
| PdfExport.PlaceScreenshot | src/lib/pdf-export.ts:53-85 | in exact arithmetic, the `heightLeft` countdown loop ends on every page taller than its margins, uses the fewest pages that leave no height, places the image on page k as `Placement` says, and so yields exactly the placements the document body uses |
| PdfExport.PagesFitUnique | src/lib/pdf-export.ts:70-85 | only one page count is the fewest that leaves no height, so the loop and the closed-form page count agree |
| PdfExport.FitsFirstPage | src/lib/pdf-export.ts:61-72 | a screenshot no higher than the first page's share is drawn once, at y = 80, at its own height |
| PdfExport.ContinuationPlacement | src/lib/pdf-export.ts:73-84 | on every later page the image is shifted up by the height already consumed, and drawn no higher than the space between the margins and no higher than what is left |
| PdfExport.DrawnHeightsAddUp | src/lib/pdf-export.ts:57-85 | the heights drawn on all pages add up to the screenshot's height |
| PdfExport.TextualContentTexts | src/lib/pdf-export.ts:108-160 | the textual summary, written from y = 80 on the current page, adds its titles, the bulleted metrics and every wrapped insight line bulleted, in order, after the document's texts so far, none below y = 250 |
| PdfExport.TextualContent | src/lib/pdf-export.ts:108-160 | the textual summary leaves every earlier page as it was and only appends to the current page and to new pages after it |
| PdfExport.PutLine | src/lib/pdf-export.ts:150-157 | an insight line starts a new page exactly when the cursor is below y = 250, continuing at y = 40; it is drawn as `• ` and the line at x = 25 at that height on the last page, and the cursor moves down 6 |
| PdfExport.PutLineAboveBreak | src/lib/pdf-export.ts:150-157 | a line is put on a new page when the cursor is below y = 250, so no line is drawn below it |
| PdfExport.PutInsightsTexts | src/lib/pdf-export.ts:148-159 | the insights' wrapped lines come out bulleted and in order, page breaks included |
| PdfExport.AddFooter | src/lib/pdf-export.ts:162-189 | every page keeps its content and gets the footer for its own number out of the final page count |
| PdfExport.PageLabelReadsBack | src/lib/pdf-export.ts:183-187 | the page label shows the page number and the page count as decimal numbers that read back to them |
| PdfExport.PageLabelsDistinct | src/lib/pdf-export.ts:183-187 | two different pages of one document carry different labels |
| PdfExport.FileName | src/lib/pdf-export.ts:99 | the file name starts with `ai-analysis-` and ends with `.pdf` |
| PdfExport.FileNameCarriesDate | src/lib/pdf-export.ts:99 | the file name carries exactly the part of the timestamp before its first `T` |
| PdfExport.Export | src/lib/pdf-export.ts:5-106 | the export rejects exactly when a PDF library call outside the screenshot block (lines 41-85) throws, always with `Не удалось создать PDF файл`; otherwise, including after a failure inside that block, it saves under the dated name a document starting with the header |
| PdfExport.Body | src/lib/pdf-export.ts:38-93 | whatever the capture outcome, the body has at least one page and its first page starts with the header; the five lemmas below state its pages and texts for each outcome |
| PdfExport.ScreenshotBody | src/lib/pdf-export.ts:40-86 | with a screenshot, the first page holds the header and the first placement, and each later page one placement |
| PdfExport.TextualBody | src/lib/pdf-export.ts:86-93 | without an element, or when the capture throws, the document holds the header's texts and then the textual summary, none below the break height |
| PdfExport.DrawFailureKeepsDrawn | src/lib/pdf-export.ts:61-89 | when drawing placement k throws (adding its page, encoding the canvas or drawing the image), placements 0 to k-1 stay on their pages, the first below the header |
| PdfExport.DrawFailureTexts | src/lib/pdf-export.ts:86-89 | after a drawing failure the summary follows on the current page from y = 80, so the document's texts are exactly those of the textual export, none below the break height |
| PdfExport.UnreachedFailureIsHarmless | src/lib/pdf-export.ts:73-85 | a failure at a step the loop never reaches leaves the complete screenshot document |
| PdfExport.ExportNumbersPages | src/lib/pdf-export.ts:96 | every page of a saved document ends with the footer that numbers it among all pages |
| Api.Received | src/lib/api.ts:80-84 | a response is an HTTP error exactly when its status is outside 2xx, and a success exactly when the status is 2xx and the body decodes |
| Api.SearchCompanies | src/lib/api.ts:69-88 | a search resolves exactly on success, to the payload unchanged; every failure rejects with `Не удалось выполнить поиск компаний` |
| Api.AnalyzeCompany | src/lib/api.ts:90-109 | an analysis resolves exactly on success, to the payload unchanged; every failure rejects with `Не удалось выполнить анализ компании` |
| Api.SearchReceivedRoundTrip | src/lib/api.ts:80-87 | a response with a 2xx status and a readable body makes the search resolve to exactly that body |
| Api.SearchFailuresLookAlike | src/lib/api.ts:84-87 | any two failed searches, whatever the status or error, give the same rejection |
| Api.AnalyzeFailuresLookAlike | src/lib/api.ts:105-108 | any two failed analyses give the same rejection |
| Api.NewsByOkved | src/lib/api.ts:111-128 | the news request never fails: a success gives the payload, any failure the empty list with zero counts |
| Api.NewsKeepsConsistency | src/lib/api.ts:111-128 | the result's count equals its number of items and is at most the total available, whenever the back-end's answer is so |
| Api.FormatPercentage | src/lib/api.ts:142-145 | the text starts with `+` exactly when the value is not negative, with `-` exactly when it is negative, and ends with `%` |
| Api.PercentageRoundTrip | src/lib/api.ts:142-145 | the sign and the formatted magnitude can be read back from the text |
| Chat.HandleSubmit | src/components/chat-interface.tsx:23-29 | a message is sent exactly when the input is not blank and nothing is loading; it is the trimmed input and the field is cleared; otherwise the field is kept |
| Chat.SendEnabled | src/components/chat-interface.tsx:182 | the send button is enabled exactly when a submit would send |
| Chat.SentMessageIsClean | src/components/chat-interface.tsx:27 | a sent message is never blank and has nothing left to trim |
| Chat.ChooseExample | src/components/chat-interface.tsx:132 | clicking example i replaces the field with exactly that example, whatever it held before |
| Chat.ExamplesCanBeSent | src/components/chat-interface.tsx:120-132 | each example put into the field can be sent at once |
| Chat.OpenExampleSentTrimmed | src/components/chat-interface.tsx:123-130 | the example ending in a space is sent without that space |
| App.Init | src/App.tsx:24-26 | the application starts on the chat with no messages and an empty query |
| App.Submit | src/App.tsx:31-43 | a submission appends exactly the user's message, keeps every earlier message, records it as the query and shows the loading screen |
| App.Complete | src/App.tsx:49-60 | the answer appends exactly the fixed reply, keeps every earlier message and the query, and shows the analysis |
| App.Back | src/App.tsx:63-65 | going back changes only the screen, to the chat |
| App.NewQuery | src/App.tsx:67-71 | a new query clears the messages and the query and returns to the chat |
| App.Step | src/App.tsx:31-71 | each event goes to its handler: a non-blank send shows loading with the trimmed text appended as the user's message and recorded as the query, a blank send changes nothing, the answer appends the fixed reply and shows the analysis, back only returns to the chat, and a new query clears everything |
| App.ExportPdf | src/App.tsx:73-80 | the export is of the current query; its failure is never passed on but becomes the fixed alert |
| App.StepPreservesValid | src/App.tsx:24-71 | every event available on screen keeps the conversation a run of exchanges, loading exactly while one is unanswered, and the query equal to the last user message |
| App.ReachableIsValid | src/App.tsx:24-71 | every state reached from the start by events available on screen satisfies that invariant |
| App.SubmissionAddsExchange | src/App.tsx:31-60 | an accepted submission and its answer add exactly the trimmed message and then the reply at the end |
| App.StepAppendsOnly | src/App.tsx:39-57 | apart from a new query, no event changes or reorders an existing message |
| App.AnalysisShowsLastQuery | src/App.tsx:104-158 | wherever the analysis and the new-query button are shown, the conversation ends with an answered exchange whose question is the current query |
| App.ExamplesIffNoQuery | src/components/chat-interface.tsx:91 | in every reachable state the example prompts are shown exactly when no query has been sent |
| Loading.Tick | src/hooks/use-loading.ts:28-33 | a tick while loading moves to the next index modulo 15 and shows that index's text; without the timer nothing changes |
| Loading.Initial | src/hooks/use-loading.ts:22-23 | on mount the index is 0, the text is the first of the table, and no timer runs |
| Loading.SetLoading | src/hooks/use-loading.ts:25-42 | starting to load resets to the first text; stopping keeps the text; an unchanged flag changes nothing |
| Loading.EventsPreserveValid | src/hooks/use-loading.ts:21-38 | the index stays in range and the text stays the one it points at |
| Loading.TicksAdvance | src/hooks/use-loading.ts:28-33 | while loading, n ticks advance the index by n around the table |
| Loading.FullRound | src/hooks/use-loading.ts:30 | fifteen ticks, or any multiple of fifteen, return to the starting text |
| Loading.TotalTexts | src/hooks/use-loading.ts:55 | the hook reports fifteen texts |
| Text.TrimEmptyIffBlank | src/components/chat-interface.tsx:25 | trimming yields the empty string exactly when the input has only whitespace |

## Left out

- Rendering, animation and the analysis screen's demo content: not logic.
- The tooltip's mouse position and the global `mousemove` subscription: not logic.
- Parsing and serialising the SVG document: paths and the root are modelled as attribute records.
- The network, JSON decoding and request bodies: each operation takes its request's result.
- jsPDF internals: the page size is a parameter, and line wrapping is a `wrap` function parameter.
- Fonts and colours of the PDF text: not modelled.
- Whether `addImage` crops or scales the screenshot. The model states the offsets and heights the
  export computes. It makes no claim that the pages together show the whole image without gaps.
- html2canvas: a capture is either missing, failing, or a canvas size with a positive width. A zero
  canvas width, which would divide by zero, is excluded by the type.
- Failures of PDF library calls outside the screenshot block: one flag, because each of them ends in
  the same rejection. A failure inside the block is a capture outcome: either the capture itself
  fails or drawing stops at a given placement, and both fall back to the textual summary.
- `formatCurrency`: `Intl.NumberFormat` is not modelled.
- `Date`, `formatDate`, `toISOString`: the formatted date and the timestamp are inputs.
- `sleep` with its random delay: modelled as a separate completion event.
- `getRandomText` (`Math.random`) and message ids and timestamps: randomness and clocks.
- Async interleaving: handlers run one at a time.
- `useTheme`, the rotate screen and the animated background: no logic to state.
- Api.FormatPercentage: the JavaScript `number` is modelled as a `real`, and `toFixed(1)` rounding
  is not modelled. The magnitude it writes is a parameter, and only the sign, the `+` and the `%`
  are proved. Three cases fall outside the model. `NaN` is written `NaN%`, without `+`, because
  `NaN >= 0` is false. `Infinity` and `-Infinity` are written `+Infinity%` and `-Infinity%`. When
  the value times 100 is at least 1e21 in magnitude, `toFixed` writes an exponent form, which
  `IsFixedOne` excludes.
- Regions.RegionCodeIsHeatKey: states that a code found for a name is a heat-map key whose entry
  carries that name. It does not state `getRegionCode(entry.name) == entry.id` for every entry.
  That needs the 83 names to be pairwise distinct, and proving 3403 string disequalities is beyond
  the solver's budget here.
- Regions.RegionCodeDefinedIffHeatName: states that a name has a code exactly when some heat-map
  entry carries it. For the same reason, it does not state which entry's id the code is.
- PdfExport.PlaceScreenshot: the page must be taller than its two margins. On a shorter page the
  loop in the code never ends. All PDF lengths are exact reals, while the code computes them in
  IEEE doubles. In doubles the loop also never ends when a page's share, the page height minus
  two margins, is below the rounding unit of the height left, because subtracting it leaves the
  height unchanged. When the exact height left lands within rounding error of zero, the page count
  in doubles can differ by one from `PageCount`. The code only ever asks for A4 pages (about
  210 × 297 mm), where neither happens at realistic canvas sizes.

## Findings

| source | as written | input that shows it | evidently intended | confidence | as-written member | corrected member |
|---|---|---|---|---|---|---|
| src/lib/api.ts:234 | `regionMap[regionName] \|\| null` reads a plain object literal, so names of inherited `Object.prototype` members resolve to those members | `getRegionCode("constructor")` returns the `Object` function, which is truthy, instead of `null` | `null` for every string that is not one of the 83 listed names | high for the JavaScript semantics of property lookup; not executed | Regions.RegionCodeAsWritten, Regions.PrototypeNameIsNotARegion | Regions.RegionCode |

=== FILE: api.dfy ===
/**
 * The client side of the back-end API (src/lib/api.ts): the records the back-end answers with,
 * how each request turns its HTTP result into a value or an error, and the percentage format.
 *
 * The request itself is not modelled: each operation takes the result of its `fetch` call.
 */
module Api {
  import opened Wrappers
  import opened Text

  // ----- Records -----

  datatype Company = Company(id: int, tin: string, orgShortName: string, activityCodeMain: string, region: string)

  /** The answer to a free-text company search. */
  datatype QueryResponse = QueryResponse(kind: string, message: string, data: seq<Company>)

  datatype CompanyInfo = CompanyInfo(tin: string, name: string, region: string, activityCode: string, fullInfo: Company)

  datatype Profitability = Profitability(predictedRevenue: real, predictedPctChange: real, cluster: string, lastRevenue: real)

  datatype NewsItem = NewsItem(title: string, category: string, date: string, source: string, summary: string)

  /** Industry news: `count` items listed out of `totalAvailable` known. */
  datatype IndustryNews = IndustryNews(count: int, news: seq<NewsItem>, totalAvailable: int)

  datatype AnalysisMetadata = AnalysisMetadata(analysisDate: string, processingTimeSeconds: real)

  /** The full analysis of one company. */
  datatype AnalysisData = AnalysisData(
    companyInfo: CompanyInfo,
    profitability: Profitability,
    industryNews: IndustryNews,
    aiAnalysis: string,
    metadata: AnalysisMetadata)

  // ----- HTTP results -----

  /**
   * How a request ends: a successful response with its decoded body, a response whose status is
   * not successful, or a thrown error (the network failed or the body was not valid JSON).
   */
  datatype HttpResult<T> = Ok(payload: T) | HttpError(status: int) | Thrown

  /** `response.ok`: the status is in the 2xx range. */
  predicate IsOkStatus(status: int) {
    200 <= status <= 299
  }

  /**
   * The result of a request that got a response with `status`; `body` is the decoded body, or
   * `None` when decoding it throws. The status is checked before the body is read.
   */
  function Received<T>(status: int, body: Option<T>): (r: HttpResult<T>)
    ensures r.HttpError? <==> !IsOkStatus(status)
    ensures r.HttpError? ==> r.status == status
    ensures r.Ok? <==> IsOkStatus(status) && body.Some?
    ensures r.Ok? ==> r.payload == body.value
  {
    if !IsOkStatus(status) then HttpError(status)
    else match body
      case Some(v) => Ok(v)
      case None => Thrown
  }

  /** A request that fails in any way rejects with the given message; a success resolves to its payload. */
  function Settle<T>(r: HttpResult<T>, failure: string): (o: Outcome<T>)
    ensures o.Resolved? <==> r.Ok?
    ensures o.Resolved? ==> o.value == r.payload
    ensures o.Rejected? ==> o.message == failure
  {
    match r
    case Ok(v) => Resolved(v)
    case _ => Rejected(failure)
  }

  const SearchFailedMessage := "Не удалось выполнить поиск компаний"
  const AnalyzeFailedMessage := "Не удалось выполнить анализ компании"

  /** `searchCompanies(query)` once its request has ended with `r`. */
  function SearchCompanies(r: HttpResult<QueryResponse>): (o: Outcome<QueryResponse>)
    ensures o.Resolved? <==> r.Ok?
    ensures o.Resolved? ==> o.value == r.payload
    ensures o.Rejected? ==> o.message == SearchFailedMessage
  {
    Settle(r, SearchFailedMessage)
  }

  /** `analyzeCompany(tin)` once its request has ended with `r`. */
  function AnalyzeCompany(r: HttpResult<AnalysisData>): (o: Outcome<AnalysisData>)
    ensures o.Resolved? <==> r.Ok?
    ensures o.Resolved? ==> o.value == r.payload
    ensures o.Rejected? ==> o.message == AnalyzeFailedMessage
  {
    Settle(r, AnalyzeFailedMessage)
  }

  /**
   * A caller cannot tell failures apart: any unsuccessful status and any thrown error reject
   * with the same message.
   */
  lemma SearchFailuresLookAlike(r1: HttpResult<QueryResponse>, r2: HttpResult<QueryResponse>)
    requires !r1.Ok? && !r2.Ok?
    ensures SearchCompanies(r1) == SearchCompanies(r2) == Rejected(SearchFailedMessage)
  {
  }

  lemma AnalyzeFailuresLookAlike(r1: HttpResult<AnalysisData>, r2: HttpResult<AnalysisData>)
    requires !r1.Ok? && !r2.Ok?
    ensures AnalyzeCompany(r1) == AnalyzeCompany(r2) == Rejected(AnalyzeFailedMessage)
  {
  }

  /** A response with a successful status and a readable body resolves to exactly that body. */
  lemma SearchReceivedRoundTrip(status: int, body: QueryResponse)
    requires IsOkStatus(status)
    ensures SearchCompanies(Received(status, Some(body))) == Resolved(body)
  {
  }

  // ----- News -----

  /** The news list the client falls back to. */
  const NoNews := IndustryNews(0, [], 0)

  /** A news record whose count is the number of items and at most the number available. */
  predicate ConsistentNews(n: IndustryNews) {
    n.count == |n.news| && n.totalAvailable >= n.count
  }

  /** `getNewsByOkved(code)` once its request has ended with `r`: never an error. */
  function NewsByOkved(r: HttpResult<IndustryNews>): (n: IndustryNews)
    ensures r.Ok? ==> n == r.payload
    ensures !r.Ok? ==> n.count == 0 && n.news == [] && n.totalAvailable == 0
  {
    if r.Ok? then r.payload else NoNews
  }

  /** The fallback is consistent, so the result is whenever the back-end's answer is. */
  lemma NewsKeepsConsistency(r: HttpResult<IndustryNews>)
    requires r.Ok? ==> ConsistentNews(r.payload)
    ensures ConsistentNews(NewsByOkved(r))
  {
  }

  // ----- Percentages -----

  /** A non-negative number as `toFixed(1)` writes it: digits, a point and one digit. */
  predicate IsFixedOne(m: string) {
    |m| >= 3 && m[|m| - 2] == '.' && IsDigits(m[..|m| - 2]) && IsDigit(m[|m| - 1])
  }

  /** `x.toFixed(1)` where `magnitude` is how `toFixed(1)` writes `|x|` (its rounding is not modelled). */
  function ToFixedOne(x: real, magnitude: string): (r: string)
    requires IsFixedOne(magnitude)
    ensures |r| >= 3 && (r[0] == '-' <==> x < 0.0)
    ensures IsDigit(r[0]) <==> x >= 0.0
  {
    (if x < 0.0 then "-" else "") + magnitude
  }

  /**
   * `formatPercentage(value)`: the value times 100 with one decimal and a percent sign, with a
   * plus sign in front exactly when the value is not negative.
   */
  function FormatPercentage(value: real, magnitude: string): (r: string)
    requires IsFixedOne(magnitude)
    ensures |r| >= 5 && r[|r| - 1] == '%'
    ensures r[0] == '+' <==> value >= 0.0
    ensures r[0] == '-' <==> value < 0.0
  {
    (if value >= 0.0 then "+" else "") + ToFixedOne(value * 100.0, magnitude) + "%"
  }

  /** Reads a formatted percentage back: whether it was not negative, and the magnitude. */
  function ParsePercentage(s: string): (r: (bool, string))
    requires |s| >= 2 && s[|s| - 1] == '%'
  {
    (s[0] == '+', s[1..|s| - 1])
  }

  /** The sign and magnitude of a percentage can be read back from its text. */
  lemma PercentageRoundTrip(value: real, magnitude: string)
    requires IsFixedOne(magnitude)
    ensures ParsePercentage(FormatPercentage(value, magnitude)) == (value >= 0.0, magnitude)
  {
    var r := FormatPercentage(value, magnitude);
    if value >= 0.0 {
      assert r == "+" + magnitude + "%";
    } else {
      assert r == "-" + magnitude + "%";
    }
  }
}

=== FILE: app.dfy ===
/**
 * The application shell (src/App.tsx): three screens, the conversation, and the query the
 * analysis and its PDF export are about.
 *
 * Message ids and timestamps are not modelled; the random delay before the answer is modelled by
 * a separate `Complete` event.
 */
module App {
  import opened Wrappers
  import opened Text
  import Chat
  import PdfExport

  datatype Screen = ChatScreen | Loading | Analysis

  datatype Role = User | Assistant

  datatype Message = Message(content: string, role: Role)

  datatype AppModel = AppModel(screen: Screen, messages: seq<Message>, query: string)

  /** The reply appended when the (simulated) analysis finishes. */
  const CompletionText := "Анализ данных завершен. Результаты готовы для просмотра."

  /** The alert shown when the PDF export fails. */
  const ExportAlert := "Произошла ошибка при создании PDF файла"

  /** The state on start: the chat, no messages and no query. */
  function Init(): (s: AppModel)
    ensures s.screen == ChatScreen && |s.messages| == 0 && s.query == ""
  {
    AppModel(ChatScreen, [], "")
  }

  /** The first half of `handleChatSubmit`: the message is recorded as the query and the user's message. */
  function Submit(s: AppModel, m: string): (r: AppModel)
    ensures r.screen == Loading && r.query == m
    ensures |r.messages| == |s.messages| + 1 && s.messages <= r.messages
    ensures r.messages[|s.messages|] == Message(m, User)
  {
    AppModel(Loading, s.messages + [Message(m, User)], m)
  }

  /** The second half of `handleChatSubmit`, after the delay: the reply and the analysis screen. */
  function Complete(s: AppModel): (r: AppModel)
    ensures r.screen == Analysis && r.query == s.query
    ensures |r.messages| == |s.messages| + 1 && s.messages <= r.messages
    ensures r.messages[|s.messages|] == Message(CompletionText, Assistant)
  {
    AppModel(Analysis, s.messages + [Message(CompletionText, Assistant)], s.query)
  }

  /** `handleBackToChat`: only the screen changes. */
  function Back(s: AppModel): (r: AppModel)
    ensures r.screen == ChatScreen && r.messages == s.messages && r.query == s.query
  {
    s.(screen := ChatScreen)
  }

  /** `handleNewQuery`: the conversation and the query are cleared. */
  function NewQuery(s: AppModel): (r: AppModel)
    ensures r == Init()
  {
    AppModel(ChatScreen, [], "")
  }

  /** What an export leaves behind: a saved file, or the alert that replaced the error. */
  datatype ExportResult = Saved(pdf: PdfExport.SavedPdf) | Alerted(message: string)

  /**
   * `handleExportPDF`: exports the analysis of the current query; a failure never escapes and
   * becomes the alert. The state does not change.
   */
  function ExportPdf(s: AppModel, env: PdfExport.ExportEnv, wrap: (string, real) -> seq<string>): (r: ExportResult)
    ensures r.Alerted? <==> env.pdfFails
    ensures r.Alerted? ==> r.message == ExportAlert
    ensures r.Saved? ==> r.pdf.filename == PdfExport.FileName(env.isoTimestamp) && |r.pdf.pages| >= 1
    ensures r.Saved? ==> PdfExport.Header(s.query, env.formattedDate, env.page) <= r.pdf.pages[0]
  {
    match PdfExport.Export(s.query, env, wrap)
    case Resolved(pdf) => Saved(pdf)
    case Rejected(_) => Alerted(ExportAlert)
  }

  // ----- Controls on screen -----

  /** The header's new-query button is rendered only on the analysis screen. */
  predicate ShowsNewQueryButton(s: AppModel) {
    s.screen == Analysis
  }

  /** The analysis screen, the part marked for PDF export with its back and export buttons, is rendered only on the analysis screen. */
  predicate ShowsAnalysis(s: AppModel) {
    s.screen == Analysis
  }

  /** A user action or the end of the delay. */
  datatype Event =
    | Send(input: string)      // the chat form is submitted with this text in its field
    | Completed                // the delay after a submission ends
    | BackPressed              // the analysis screen's back button
    | NewQueryPressed          // the header's new-query button

  /**
   * Whether the event can happen in `s`: the chat form exists only on the chat screen, the delay
   * runs only while loading, and both buttons exist only on the analysis screen.
   */
  predicate Available(s: AppModel, e: Event) {
    match e
    case Send(_) => s.screen == ChatScreen
    case Completed => s.screen == Loading
    case BackPressed => ShowsAnalysis(s)
    case NewQueryPressed => ShowsNewQueryButton(s)
  }

  /**
   * The effect of an event, routed to its handler. The chat form is never loading while it is
   * shown, so a non-blank input is always sent.
   */
  function Step(s: AppModel, e: Event): (r: AppModel)
    ensures e.Send? && !IsBlank(e.input) ==>
              r.screen == Loading && r.query == Trim(e.input)
              && r.messages == s.messages + [Message(Trim(e.input), User)]
    ensures e.Send? && IsBlank(e.input) ==> r == s
    ensures e.Completed? ==>
              r.screen == Analysis && r.query == s.query
              && r.messages == s.messages + [Message(CompletionText, Assistant)]
    ensures e.BackPressed? ==> r.screen == ChatScreen && r.messages == s.messages && r.query == s.query
    ensures e.NewQueryPressed? ==> r.screen == ChatScreen && r.messages == [] && r.query == ""
  {
    match e
    case Send(input) =>
      var sub := Chat.HandleSubmit(input, false);
      if sub.sent.Some? then Submit(s, sub.sent.value) else s
    case Completed => Complete(s)
    case BackPressed => Back(s)
    case NewQueryPressed => NewQuery(s)
  }

  /** Every event of the trace is available when it happens. */
  predicate Admissible(s: AppModel, events: seq<Event>)
    decreases |events|
  {
    |events| == 0 || (Available(s, events[0]) && Admissible(Step(s, events[0]), events[1..]))
  }

  /** The state after a trace of events. */
  function Run(s: AppModel, events: seq<Event>): AppModel
    decreases |events|
  {
    if |events| == 0 then s else Run(Step(s, events[0]), events[1..])
  }

  // ----- The invariant -----

  /** A message the user sent: visible text with nothing to trim. */
  predicate Clean(m: string) {
    !IsBlank(m) && Trim(m) == m
  }

  /**
   * The conversation is a sequence of exchanges: user messages at even positions, each
   * answered by the fixed reply at the next odd position.
   */
  predicate Exchanges(ms: seq<Message>) {
    forall i :: 0 <= i < |ms| ==>
      (ms[i].role == User <==> i % 2 == 0)
      && (i % 2 == 0 ==> Clean(ms[i].content))
      && (i % 2 == 1 ==> ms[i].content == CompletionText)
  }

  /** The position of the last user message. */
  function LastUser(ms: seq<Message>): nat
    requires |ms| > 0
  {
    (|ms| - 1) - (|ms| - 1) % 2
  }

  /** With an unanswered question the last user message is the last message, otherwise the one before. */
  lemma LastUserByParity(ms: seq<Message>)
    requires |ms| > 0
    ensures |ms| % 2 == 1 ==> LastUser(ms) == |ms| - 1
    ensures |ms| % 2 == 0 ==> LastUser(ms) == |ms| - 2
  {
  }

  /**
   * The states the application can reach: a conversation of exchanges; loading exactly while the
   * last exchange is unanswered; an analysis only after an answer; and the query is the last
   * message the user sent, or empty when there is none.
   */
  predicate Valid(s: AppModel) {
    Exchanges(s.messages)
    && (s.screen == Loading <==> |s.messages| % 2 == 1)
    && (s.screen == Analysis ==> |s.messages| >= 2)
    && (|s.messages| == 0 ==> s.query == "")
    && (|s.messages| > 0 ==> s.query == s.messages[LastUser(s.messages)].content)
  }

  lemma InitValid()
    ensures Valid(Init())
  {
  }

  /** Every available event keeps the application in a reachable state. */
  lemma StepPreservesValid(s: AppModel, e: Event)
    requires Valid(s) && Available(s, e)
    ensures Valid(Step(s, e))
  {
    match e
    case Send(input) =>
      var sub := Chat.HandleSubmit(input, false);
      if sub.sent.Some? {
        Chat.SentMessageIsClean(input, false);
        SubmitPreservesValid(s, sub.sent.value);
      }
    case Completed => CompletePreservesValid(s);
    case BackPressed =>
    case NewQueryPressed =>
  }

  lemma SubmitPreservesValid(s: AppModel, m: string)
    requires Valid(s) && s.screen == ChatScreen && Clean(m)
    ensures Valid(Submit(s, m))
  {
    var r := Submit(s, m);
    assert |s.messages| % 2 == 0;
    ExchangesExtend(s.messages, Message(m, User));
    assert r.messages == s.messages + [Message(m, User)];
    LastUserByParity(r.messages);
  }

  lemma CompletePreservesValid(s: AppModel)
    requires Valid(s) && s.screen == Loading
    ensures Valid(Complete(s))
  {
    var r := Complete(s);
    ExchangesExtend(s.messages, Message(CompletionText, Assistant));
    assert r.messages == s.messages + [Message(CompletionText, Assistant)];
    LastUserByParity(r.messages);
    LastUserByParity(s.messages);
    assert r.messages[LastUser(r.messages)] == s.messages[LastUser(s.messages)];
  }

  /** A message that continues the alternation extends a conversation of exchanges. */
  lemma ExchangesExtend(ms: seq<Message>, m: Message)
    requires Exchanges(ms)
    requires |ms| % 2 == 0 ==> m.role == User && Clean(m.content)
    requires |ms| % 2 == 1 ==> m == Message(CompletionText, Assistant)
    ensures Exchanges(ms + [m])
  {
    var r := ms + [m];
    forall i | 0 <= i < |r|
      ensures (r[i].role == User <==> i % 2 == 0)
              && (i % 2 == 0 ==> Clean(r[i].content))
              && (i % 2 == 1 ==> r[i].content == CompletionText)
    {
      if i < |ms| {
        assert r[i] == ms[i];
      }
    }
  }

  /** Every admissible trace from a reachable state ends in a reachable state. */
  lemma {:induction false} RunPreservesValid(s: AppModel, events: seq<Event>)
    requires Valid(s) && Admissible(s, events)
    ensures Valid(Run(s, events))
    decreases |events|
  {
    if |events| > 0 {
      StepPreservesValid(s, events[0]);
      RunPreservesValid(Step(s, events[0]), events[1..]);
    }
  }

  /** Every state reached from the start is valid. */
  lemma ReachableIsValid(events: seq<Event>)
    requires Admissible(Init(), events)
    ensures Valid(Run(Init(), events))
  {
    InitValid();
    RunPreservesValid(Init(), events);
  }

  /**
   * An accepted submission followed by its answer adds exactly two messages to the end, the
   * user's trimmed message and then the reply, and keeps every earlier message in place.
   */
  lemma SubmissionAddsExchange(s: AppModel, input: string)
    requires s.screen == ChatScreen && !IsBlank(input)
    ensures var r := Step(Step(s, Send(input)), Completed);
            r.messages == s.messages + [Message(Trim(input), User), Message(CompletionText, Assistant)]
            && r.query == Trim(input) && r.screen == Analysis
  {
    var m := Step(s, Send(input));
    assert m.messages == s.messages + [Message(Trim(input), User)];
  }

  /** A blank submission changes nothing. */
  lemma BlankSendIsIgnored(s: AppModel, input: string)
    requires IsBlank(input)
    ensures Step(s, Send(input)) == s
  {
  }

  /** The conversation only grows, except when a new query clears it. */
  lemma StepAppendsOnly(s: AppModel, e: Event)
    requires !e.NewQueryPressed?
    ensures s.messages <= Step(s, e).messages
  {
  }

  /**
   * Wherever the analysis and its new-query button are shown, the conversation ends with an
   * answered exchange whose question is the query the analysis and its export are about.
   */
  lemma AnalysisShowsLastQuery(s: AppModel)
    requires Valid(s) && ShowsAnalysis(s)
    ensures var ms := s.messages;
            |ms| >= 2 && ms[|ms| - 1] == Message(CompletionText, Assistant)
            && ms[|ms| - 2] == Message(s.query, User) && Clean(s.query)
  {
    var ms := s.messages;
    AnalysisAfterAnswer(s);
    LastExchange(ms);
    assert s.query == ms[|ms| - 2].content;
  }

  /** The analysis is shown only after an even, non-empty conversation. */
  lemma AnalysisAfterAnswer(s: AppModel)
    requires Valid(s) && ShowsAnalysis(s)
    ensures |s.messages| >= 2 && |s.messages| % 2 == 0
  {
  }

  /** A conversation of complete exchanges ends with its last question answered. */
  lemma LastExchange(ms: seq<Message>)
    requires Exchanges(ms) && |ms| >= 2 && |ms| % 2 == 0
    ensures LastUser(ms) == |ms| - 2
    ensures ms[|ms| - 1] == Message(CompletionText, Assistant)
    ensures ms[|ms| - 2].role == User && Clean(ms[|ms| - 2].content)
  {
    LastUserByParity(ms);
    ExchangeAt(ms, |ms| - 1);
    ExchangeAt(ms, |ms| - 2);
  }

  /**
   * The example prompts are offered exactly while no query has been sent: at the start and after
   * a new query, and never once the conversation has a message.
   */
  lemma ExamplesIffNoQuery(s: AppModel)
    requires Valid(s)
    ensures Chat.ShowsExamples(|s.messages|) <==> s.query == ""
  {
    if |s.messages| > 0 {
      ExchangeAt(s.messages, LastUser(s.messages));
    }
  }

  /** What the exchange structure says about one position. */
  lemma ExchangeAt(ms: seq<Message>, i: nat)
    requires Exchanges(ms) && i < |ms|
    ensures i % 2 == 0 ==> ms[i].role == User && Clean(ms[i].content)
    ensures i % 2 == 1 ==> ms[i] == Message(CompletionText, Assistant)
  {
  }
}

=== FILE: chat.dfy ===
/**
 * The chat input (src/components/chat-interface.tsx): when a typed message is sent, what is sent,
 * when the send button is enabled, and the example prompts that fill the input.
 */
module Chat {
  import opened Wrappers
  import opened Text

  /** What a submit does: the input left in the field and the message handed on, if any. */
  datatype Submission = Submission(input: string, sent: Option<string>)

  /** The submit guard: the trimmed input is not empty and no answer is pending. */
  predicate Accepts(input: string, isLoading: bool) {
    Trim(input) != "" && !isLoading
  }

  /**
   * Submitting the form: an accepted input is sent trimmed and the field is cleared; otherwise
   * nothing is sent and the field keeps its text.
   */
  function HandleSubmit(input: string, isLoading: bool): (r: Submission)
    ensures r.sent.Some? <==> !IsBlank(input) && !isLoading
    ensures r.sent.Some? ==> r.sent.value == Trim(input) && r.input == ""
    ensures r.sent.None? ==> r.input == input
  {
    TrimEmptyIffBlank(input);
    if !Accepts(input, isLoading) then Submission(input, None)
    else Submission("", Some(Trim(input)))
  }

  /** The send button is enabled unless the trimmed input is empty or an answer is pending. */
  function SendEnabled(input: string, isLoading: bool): (enabled: bool)
    ensures enabled <==> HandleSubmit(input, isLoading).sent.Some?
  {
    !(Trim(input) == "" || isLoading)
  }

  /** A sent message is never blank and has nothing left to trim. */
  lemma SentMessageIsClean(input: string, isLoading: bool)
    requires HandleSubmit(input, isLoading).sent.Some?
    ensures var m := HandleSubmit(input, isLoading).sent.value;
            !IsBlank(m) && Trim(m) == m
  {
    TrimIdempotent(input);
    TrimEmptyIffBlank(Trim(input));
  }

  /** The example prompts offered while the conversation is empty. */
  const Examples: seq<string> := [
    "Какая компания будет прибыльной в короткие сроки",
    "Что ты думаешь о компании",
    "Стоит ли инвестировать в "]

  /** Examples are offered only while there are no messages. */
  predicate ShowsExamples(messageCount: nat) {
    messageCount == 0
  }

  /** Clicking example `i` replaces the input with the example's text exactly. */
  function ChooseExample(input: string, i: nat): (r: string)
    requires i < |Examples|
    ensures r in Examples && r == Examples[i]
  {
    Examples[i]
  }

  /** Every example can be sent as soon as it is chosen, when no answer is pending. */
  lemma ExamplesCanBeSent(input: string, i: nat)
    requires i < |Examples|
    ensures SendEnabled(ChooseExample(input, i), false)
  {
    var e := Examples[i];
    if i == 0 {
      assert e[|e| - 1] == 'и';
    } else if i == 1 {
      assert e[|e| - 1] == 'и';
    } else {
      assert e[|e| - 2] == 'в';
    }
    VisibleCharIsSendable(e, if i == 2 then |e| - 2 else |e| - 1);
  }

  /** Text with a visible character survives trimming. */
  lemma VisibleCharIsSendable(s: string, k: nat)
    requires k < |s| && !IsWhitespace(s[k])
    ensures Trim(s) != ""
  {
    TrimEmptyIffBlank(s);
  }

  /**
   * The last example ends with a space so that a company name can be typed after it; sent as it
   * is, it goes out without that space.
   */
  lemma OpenExampleSentTrimmed(input: string)
    ensures HandleSubmit(ChooseExample(input, 2), false) == Submission("", Some("Стоит ли инвестировать в"))
  {
    var e := Examples[2];
    var t := "Стоит ли инвестировать в";
    assert e == t + " ";
    assert LeadingBlanks(e) == 0;
    assert VisibleEnd(e) == VisibleEnd(t) == |t|;
    TrimEmptyIffBlank(e);
  }
}

=== FILE: heatmap.dfy ===
/**
 * The Russia heatmap (src/components/russia-heatmap.tsx): the styling pass that colours every
 * region path of the loaded map, the pointer handlers that show a hover look and a tooltip,
 * and the fitting of the map's root element to its container.
 *
 * Paths and the root element are modelled by the attributes the component reads and writes.
 * A missing attribute is `None`, as `getAttribute` returns `null`.
 */
module Heatmap {
  import opened Wrappers
  import opened Text
  import opened Palette
  import opened Regions

  /** A `<path>` element of the map. */
  datatype SvgPath = SvgPath(
    id: Option<string>,
    fill: Option<string>,
    stroke: Option<string>,
    strokeWidth: Option<string>,
    style: Option<string>)

  /** The path matches the selector `path[id^="RU-"]`. */
  predicate IsRegionPath(p: SvgPath) {
    p.id.Some? && StartsWith(p.id.value, "RU-")
  }

  /**
   * `highlightedRegion && regionId === highlightedRegion`: an absent or empty highlight
   * highlights nothing.
   */
  predicate IsHighlighted(id: string, highlighted: Option<string>) {
    highlighted.Some? && highlighted.value != "" && id == highlighted.value
  }

  /** The heatmap entry stored under the path's id, if any. */
  function DataFor(p: SvgPath): Option<RegionData>
    requires IsRegionPath(p)
  {
    Find(RegionsData(), p.id.value)
  }

  /** A path gets pointer handlers exactly when it is a region path with data. */
  predicate HasHandlers(p: SvgPath) {
    IsRegionPath(p) && DataFor(p).Some?
  }

  /**
   * The styling pass on one region path. A highlighted path gets the highlight look whether or
   * not there is data for it; otherwise a path with data is filled with its colour and a path
   * without data is filled grey and keeps its own style.
   */
  function StylePath(p: SvgPath, highlighted: Option<string>): (q: SvgPath)
    requires IsRegionPath(p)
    ensures q.id == p.id && IsRegionPath(q)
    ensures q.fill.Some? && q.stroke.Some? && q.strokeWidth.Some?
    ensures IsHighlighted(p.id.value, highlighted) ==>
              q.stroke == Some(HighlightStroke) && q.style == Some(HighlightStyle)
    ensures !IsHighlighted(p.id.value, highlighted) ==>
              q.stroke == Some(PlainStroke) && q.strokeWidth == Some(PlainWidth)
              && q.style == (if DataFor(p).Some? then Some(DataStyle) else p.style)
  {
    if IsHighlighted(p.id.value, highlighted) then
      p.(fill := Some(HighlightFill), stroke := Some(HighlightStroke),
         strokeWidth := Some(HighlightWidth), style := Some(HighlightStyle))
    else
      match DataFor(p)
      case Some(d) =>
        p.(fill := Some(d.color), stroke := Some(PlainStroke),
           strokeWidth := Some(PlainWidth), style := Some(DataStyle))
      case None =>
        p.(fill := Some(NoDataFill), stroke := Some(PlainStroke), strokeWidth := Some(PlainWidth))
  }

  /** The styling pass over all paths of the map: only region paths are touched. */
  function StylePass(paths: seq<SvgPath>, highlighted: Option<string>): (r: seq<SvgPath>)
    ensures |r| == |paths|
    ensures forall i :: 0 <= i < |paths| && !IsRegionPath(paths[i]) ==> r[i] == paths[i]
    ensures forall i :: 0 <= i < |paths| && IsRegionPath(paths[i]) ==> r[i] == StylePath(paths[i], highlighted)
  {
    if |paths| == 0 then []
    else
      var last := paths[|paths| - 1];
      StylePass(paths[..|paths| - 1], highlighted)
        + [if IsRegionPath(last) then StylePath(last, highlighted) else last]
  }

  /**
   * After the pass a region path carries the highlight fill exactly when it is the highlighted
   * region, and the highlight stroke width exactly then too: no data colour is the highlight colour.
   */
  lemma HighlightLookIffHighlighted(p: SvgPath, highlighted: Option<string>)
    requires IsRegionPath(p)
    ensures StylePath(p, highlighted).fill == Some(HighlightFill) <==> IsHighlighted(p.id.value, highlighted)
    ensures StylePath(p, highlighted).strokeWidth == Some(HighlightWidth) <==> IsHighlighted(p.id.value, highlighted)
  {
    FoundEntryIsRegion(p.id.value);
  }

  /**
   * After the pass a region path is filled grey exactly when it is neither highlighted nor in
   * the table, and a path that is in the table and not highlighted shows its entry's colour.
   */
  lemma FillShowsData(p: SvgPath, highlighted: Option<string>)
    requires IsRegionPath(p)
    ensures (StylePath(p, highlighted).fill == Some(NoDataFill))
              == (!IsHighlighted(p.id.value, highlighted) && DataFor(p).None?)
    ensures !IsHighlighted(p.id.value, highlighted) && DataFor(p).Some? ==>
              StylePath(p, highlighted).fill == Some(DataFor(p).value.color)
  {
    FoundEntryIsRegion(p.id.value);
  }

  /** A region that is not highlighted looks the same whichever other region is highlighted. */
  lemma PlainLookIgnoresHighlight(p: SvgPath, h1: Option<string>, h2: Option<string>)
    requires IsRegionPath(p)
    requires !IsHighlighted(p.id.value, h1) && !IsHighlighted(p.id.value, h2)
    ensures StylePath(p, h1) == StylePath(p, h2)
  {
  }

  /** Styling an already styled map changes nothing. */
  lemma {:induction false} StylePassIdempotent(paths: seq<SvgPath>, highlighted: Option<string>)
    ensures StylePass(StylePass(paths, highlighted), highlighted) == StylePass(paths, highlighted)
  {
    var once := StylePass(paths, highlighted);
    var twice := StylePass(once, highlighted);
    forall i | 0 <= i < |paths| ensures twice[i] == once[i] {
      if IsRegionPath(paths[i]) {
        assert DataFor(once[i]) == DataFor(paths[i]);
      }
    }
  }

  /** The displayed map: styled paths, the region under the pointer, and the highlight the handlers captured. */
  datatype MapView = MapView(paths: seq<SvgPath>, hovered: Option<RegionData>, highlighted: Option<string>)

  /** The map as first shown: every path styled and nothing hovered. */
  function Render(original: seq<SvgPath>, highlighted: Option<string>): (v: MapView)
    ensures |v.paths| == |original| && v.hovered.None? && v.highlighted == highlighted
    ensures forall i :: 0 <= i < |original| ==>
              v.paths[i] == if IsRegionPath(original[i]) then StylePath(original[i], highlighted) else original[i]
  {
    MapView(StylePass(original, highlighted), None, highlighted)
  }

  /**
   * The `mouseenter` handler of path `i`: shows the tooltip for its region and, unless the path
   * is highlighted, switches it to the hover look. Paths without handlers ignore the event.
   */
  function Enter(v: MapView, i: nat): (w: MapView)
    requires i < |v.paths|
    ensures |w.paths| == |v.paths| && w.highlighted == v.highlighted
    ensures forall k :: 0 <= k < |v.paths| && k != i ==> w.paths[k] == v.paths[k]
    ensures HasHandlers(v.paths[i]) ==> w.hovered == DataFor(v.paths[i])
    ensures HasHandlers(v.paths[i]) && !IsHighlighted(v.paths[i].id.value, v.highlighted) ==>
              w.paths[i] == v.paths[i].(fill := Some(HoverFill), strokeWidth := Some(HoverWidth))
    ensures HasHandlers(v.paths[i]) && IsHighlighted(v.paths[i].id.value, v.highlighted) ==>
              w.paths[i] == v.paths[i]
    ensures !HasHandlers(v.paths[i]) ==> w == v
  {
    var p := v.paths[i];
    if !HasHandlers(p) then v
    else
      var shown := if IsHighlighted(p.id.value, v.highlighted) then p
                   else p.(fill := Some(HoverFill), strokeWidth := Some(HoverWidth));
      v.(paths := v.paths[i := shown], hovered := DataFor(p))
  }

  /**
   * The `mouseleave` handler of path `i`: hides the tooltip and puts back the fill and stroke
   * width the path had before the pointer entered. Paths without handlers ignore the event.
   */
  function Leave(v: MapView, i: nat): (w: MapView)
    requires i < |v.paths|
    ensures |w.paths| == |v.paths| && w.highlighted == v.highlighted
    ensures forall k :: 0 <= k < |v.paths| && k != i ==> w.paths[k] == v.paths[k]
    ensures HasHandlers(v.paths[i]) ==> w.hovered.None?
    ensures !HasHandlers(v.paths[i]) ==> w == v
  {
    var p := v.paths[i];
    if !HasHandlers(p) then v
    else
      var restored := if IsHighlighted(p.id.value, v.highlighted)
                      then p.(fill := Some(HighlightFill), strokeWidth := Some(HighlightWidth))
                      else p.(fill := Some(DataFor(p).value.color), strokeWidth := Some(PlainWidth));
      v.(paths := v.paths[i := restored], hovered := None)
  }

  /** Path `p` shows styled path `s`, or its hover look when `s` has handlers and is not highlighted. */
  predicate ShownAs(p: SvgPath, s: SvgPath, highlighted: Option<string>) {
    p == s
    || (HasHandlers(s) && !IsHighlighted(s.id.value, highlighted)
        && p == s.(fill := Some(HoverFill), strokeWidth := Some(HoverWidth)))
  }

  /** Every path of the view is its styled form, possibly with the hover look. */
  predicate Shown(v: MapView, original: seq<SvgPath>) {
    var styled := StylePass(original, v.highlighted);
    |v.paths| == |original|
    && forall k :: 0 <= k < |original| ==> ShownAs(v.paths[k], styled[k], v.highlighted)
  }

  /** The first render shows every path styled. */
  lemma RenderIsShown(original: seq<SvgPath>, highlighted: Option<string>)
    ensures Shown(Render(original, highlighted), original)
  {
  }

  /**
   * Entering a path keeps every path either styled or in its hover look, and a path with data
   * that is not highlighted shows the hover look of its styled form, whatever it showed before.
   */
  lemma EnterPreservesShown(v: MapView, original: seq<SvgPath>, i: nat)
    requires i < |v.paths| && Shown(v, original)
    ensures Shown(Enter(v, i), original)
    ensures HasHandlers(v.paths[i]) && !IsHighlighted(v.paths[i].id.value, v.highlighted) ==>
              Enter(v, i).paths[i]
                == StylePass(original, v.highlighted)[i].(fill := Some(HoverFill), strokeWidth := Some(HoverWidth))
  {
    var styled := StylePass(original, v.highlighted);
    var w := Enter(v, i);
    if HasHandlers(v.paths[i]) {
      assert v.paths[i].id == styled[i].id;
      assert HasHandlers(styled[i]);
      assert ShownAs(w.paths[i], styled[i], v.highlighted);
    }
  }

  /** Leaving a path puts it back to exactly its styled form. */
  lemma LeaveRestoresStyle(v: MapView, original: seq<SvgPath>, i: nat)
    requires i < |v.paths| && Shown(v, original)
    ensures Leave(v, i).paths[i] == StylePass(original, v.highlighted)[i]
    ensures Shown(Leave(v, i), original)
  {
    var styled := StylePass(original, v.highlighted);
    var p := v.paths[i];
    if HasHandlers(p) {
      assert p.id == styled[i].id;
      var o := original[i];
      assert IsRegionPath(o) && styled[i] == StylePath(o, v.highlighted);
      assert DataFor(o) == DataFor(p);
    }
  }

  /** Entering and then leaving a path of the freshly rendered map gives back that map. */
  lemma EnterLeaveRoundTrip(original: seq<SvgPath>, highlighted: Option<string>, i: nat)
    requires i < |original|
    ensures Leave(Enter(Render(original, highlighted), i), i) == Render(original, highlighted)
  {
    var v := Render(original, highlighted);
    RenderIsShown(original, highlighted);
    EnterPreservesShown(v, original, i);
    LeaveRestoresStyle(Enter(v, i), original, i);
    var w := Leave(Enter(v, i), i);
    assert w.paths == v.paths;
  }

  /** The pointer never changes how the highlighted region looks. */
  lemma HoverKeepsHighlight(v: MapView, i: nat)
    requires i < |v.paths| && IsRegionPath(v.paths[i])
    requires IsHighlighted(v.paths[i].id.value, v.highlighted)
    requires v.paths[i].fill == Some(HighlightFill) && v.paths[i].strokeWidth == Some(HighlightWidth)
    ensures Enter(v, i).paths == v.paths
    ensures Leave(v, i).paths == v.paths
  {
  }

  /** The map's root `<svg>` element. */
  datatype SvgRoot = SvgRoot(
    viewBox: Option<string>,
    geoViewBox: Option<string>,
    width: Option<string>,
    height: Option<string>,
    preserveAspectRatio: Option<string>,
    style: Option<string>)

  /** A JavaScript attribute value that is neither `null` nor the empty string. */
  predicate Truthy(a: Option<string>) {
    a.Some? && a.value != ""
  }

  const DefaultWidth := "1224"
  const DefaultHeight := "760"
  const FitWidth := "100%"
  const FitAspect := "xMidYMid meet"
  const FitStyle := "max-width: 100%; height: auto; display: block; margin: 0 auto;"

  /**
   * The view box the component writes when the root has none: from the geographic view box
   * marker with the root's size or defaults, else from a complete width and height, else defaults.
   */
  function DerivedViewBox(r: SvgRoot): string {
    if Truthy(r.geoViewBox) then
      "0 0 " + (if Truthy(r.width) then r.width.value else DefaultWidth)
        + " " + (if Truthy(r.height) then r.height.value else DefaultHeight)
    else if Truthy(r.width) && Truthy(r.height) then
      "0 0 " + r.width.value + " " + r.height.value
    else "0 0 " + DefaultWidth + " " + DefaultHeight
  }

  /** Makes the map scale with its container, keeping an existing view box. */
  function FitRoot(r: SvgRoot): (f: SvgRoot)
    ensures Truthy(r.viewBox) ==> f.viewBox == r.viewBox
    ensures Truthy(f.viewBox)
    ensures f.width == Some(FitWidth) && f.height.None?
    ensures f.preserveAspectRatio == Some(FitAspect) && f.style == Some(FitStyle)
    ensures f.geoViewBox == r.geoViewBox
  {
    var viewBox := if Truthy(r.viewBox) then r.viewBox else Some(DerivedViewBox(r));
    r.(viewBox := viewBox, width := Some(FitWidth), height := None,
       preserveAspectRatio := Some(FitAspect), style := Some(FitStyle))
  }

  /**
   * Each side of a derived view box independently: the root's own attribute is used when it is
   * set and there is either a geographic view box or the other side; otherwise the default.
   */
  function ChosenSide(own: Option<string>, other: Option<string>, geo: Option<string>, default: string): string {
    if Truthy(own) && (Truthy(geo) || Truthy(other)) then own.value else default
  }

  /** The derived view box is `0 0 <width> <height>` with each side chosen independently. */
  lemma DerivedViewBoxBySide(r: SvgRoot)
    ensures !Truthy(r.viewBox) ==>
              FitRoot(r).viewBox == Some("0 0 " + ChosenSide(r.width, r.height, r.geoViewBox, DefaultWidth)
                                         + " " + ChosenSide(r.height, r.width, r.geoViewBox, DefaultHeight))
  {
  }

  /** Fitting an already fitted root changes nothing. */
  lemma FitRootIdempotent(r: SvgRoot)
    ensures FitRoot(FitRoot(r)) == FitRoot(r)
  {
  }
}

=== FILE: loading.dfy ===
/**
 * The rotating status line of the loading screen (src/hooks/use-loading.ts): an index into a
 * fixed table of fifteen texts that advances on every timer tick while loading and restarts from
 * the first text whenever loading begins.
 */
module Loading {

  /** The table of status texts, in order. */
  function LoadingTexts(): seq<string> {
    [ "Анализируем данные...",
      "Обрабатываем информацию...",
      "Генерируем отчет...",
      "Применяем машинное обучение...",
      "Строим графики...",
      "Выполняем расчеты...",
      "Создаем визуализацию...",
      "Подготавливаем результаты...",
      "Обучаем нейронную сеть...",
      "Извлекаем инсайты...",
      "Формируем выводы...",
      "Проверяем точность...",
      "Оптимизируем алгоритмы...",
      "Сопоставляем данные...",
      "Выявляем закономерности..." ]
  }

  /** The `i`-th status text (0-based) of the table. */
  function LoadingText(i: nat): string
    requires i < 15
  {
    LoadingTexts()[i]
  }

  /** `totalTexts`: the size of the table. */
  function TotalTexts(): (n: nat)
    ensures n == 15
  {
    |LoadingTexts()|
  }

  /** The hook's state, and whether its timer runs (`isLoading` as last seen). */
  datatype LoadingState = LoadingState(textIndex: nat, currentText: string, active: bool)

  /** The index is in the table and the shown text is the one it points at. */
  predicate Valid(s: LoadingState) {
    s.textIndex < 15 && s.currentText == LoadingText(s.textIndex)
  }

  /** The state on mount: the first text, timer not running. */
  function Initial(): (s: LoadingState)
    ensures Valid(s) && s.textIndex == 0 && !s.active
  {
    LoadingState(0, LoadingText(0), false)
  }

  /**
   * One timer tick: the next text, wrapping from the last back to the first. Without a running
   * timer there is no tick, so nothing changes.
   */
  function Tick(s: LoadingState): (r: LoadingState)
    ensures s.active ==> r.textIndex == (s.textIndex + 1) % 15 && r.currentText == LoadingText(r.textIndex)
    ensures s.active ==> Valid(r) && r.active
    ensures !s.active ==> r == s
  {
    if !s.active then s
    else
      var next := (s.textIndex + 1) % 15;
      LoadingState(next, LoadingText(next), true)
  }

  /**
   * A new value of `isLoading`. Turning on restarts from the first text and starts the timer;
   * turning off stops the timer and keeps the text; an unchanged value does nothing.
   */
  function SetLoading(s: LoadingState, isLoading: bool): (r: LoadingState)
    ensures isLoading && !s.active ==> r.textIndex == 0 && r.currentText == LoadingText(0) && r.active
    ensures !(isLoading && !s.active) ==> r.textIndex == s.textIndex && r.currentText == s.currentText
    ensures r.active == isLoading
  {
    if isLoading == s.active then s
    else if isLoading then LoadingState(0, LoadingText(0), true)
    else s.(active := false)
  }

  /** Ticks and changes of `isLoading` keep the index in range and the text in step with it. */
  lemma EventsPreserveValid(s: LoadingState, isLoading: bool)
    requires Valid(s)
    ensures Valid(Tick(s)) && Valid(SetLoading(s, isLoading))
  {
  }

  /** `n` ticks in a row. */
  function Ticks(s: LoadingState, n: nat): LoadingState
    decreases n
  {
    if n == 0 then s else Ticks(Tick(s), n - 1)
  }

  /** While loading, `n` ticks advance the index by `n` around the table. */
  lemma TicksAdvance(s: LoadingState, n: nat)
    requires Valid(s) && s.active
    ensures Ticks(s, n).textIndex == (s.textIndex + n) % 15 && Valid(Ticks(s, n)) && Ticks(s, n).active
  {
    TicksStep(s, n);
    IndexAfterIsMod(s.textIndex, n);
    TicksValid(s, n);
  }

  /** The index after `n` steps of `(i + 1) % 15`. */
  function IndexAfter(i: nat, n: nat): nat
    decreases n
  {
    if n == 0 then i else IndexAfter((i + 1) % 15, n - 1)
  }

  /** The index after `n` ticks is the index after `n` plain steps; the timer keeps running. */
  lemma {:induction false} TicksStep(s: LoadingState, n: nat)
    requires s.textIndex < 15 && s.active
    ensures Ticks(s, n).textIndex == IndexAfter(s.textIndex, n) && Ticks(s, n).active
    decreases n
  {
    if n > 0 {
      TicksStep(Tick(s), n - 1);
    }
  }

  /** `n` single steps around the table are one step of `n`. */
  lemma {:induction false} IndexAfterIsMod(i: nat, n: nat)
    requires i < 15
    ensures IndexAfter(i, n) == (i + n) % 15
    decreases n
  {
    if n > 0 {
      IndexAfterIsMod((i + 1) % 15, n - 1);
      ModStep(i, n);
    }
  }

  /** Any number of ticks keeps the state valid. */
  lemma {:induction false} TicksValid(s: LoadingState, n: nat)
    requires Valid(s)
    ensures Valid(Ticks(s, n))
    decreases n
  {
    if n > 0 {
      TicksValid(Tick(s), n - 1);
    }
  }

  lemma ModStep(a: nat, n: nat)
    requires n > 0
    ensures ((a + 1) % 15 + (n - 1)) % 15 == (a + n) % 15
  {
    var q := (a + 1) / 15;
    assert a + 1 == q * 15 + (a + 1) % 15;
  }

  /**
   * Fifteen ticks, or any multiple of fifteen, bring the loading screen back to the text it
   * started from.
   */
  lemma FullRound(s: LoadingState, n: nat)
    requires Valid(s) && s.active && n % TotalTexts() == 0
    ensures Ticks(s, n) == s
  {
    TicksAdvance(s, n);
    var r := Ticks(s, n);
    ModMultiple(s.textIndex, n);
    assert r.textIndex == s.textIndex;
    assert r.currentText == s.currentText;
  }

  lemma ModMultiple(i: nat, n: nat)
    requires i < 15 && n % 15 == 0
    ensures (i + n) % 15 == i
  {
    var q := n / 15;
    assert n == q * 15;
  }
}

=== FILE: palette.dfy ===
/** The attribute values the heatmap writes onto region paths (src/components/russia-heatmap.tsx). */
module Palette {

  /** Look of the highlighted region, with or without data. */
  const HighlightFill := "#ef4444"
  const HighlightStroke := "#dc2626"
  const HighlightWidth := "2"
  const HighlightStyle := "cursor: pointer; transition: all 0.2s ease; filter: brightness(1.2);"

  /** Outline and style of every other region; regions with data are filled with their colour. */
  const PlainStroke := "#374151"
  const PlainWidth := "0.5"
  const DataStyle := "cursor: pointer; transition: all 0.2s ease;"

  /** Fill of a region the table has no data for. */
  const NoDataFill := "#4b5563"

  /** Look of a region with data while the pointer is over it. */
  const HoverFill := "#fbbf24"
  const HoverWidth := "1"
}

=== FILE: pdf_export.dfy ===
/**
 * Export of the analysis screen to a PDF file (src/lib/pdf-export.ts): a header, then either a
 * screenshot of the analysis spread over as many pages as it needs or, when no screenshot can
 * be taken, a textual summary; then a footer with page numbers on every page.
 *
 * A document is the list of its pages, each the list of drawing operations on it. Lengths are
 * in millimetres measured from the top-left corner of a portrait page.
 */
module PdfExport {
  import opened Wrappers
  import opened Text

  /** A drawing operation. `Image` draws the whole screenshot scaled into the given box. */
  datatype Op =
    | TextAt(content: string, x: real, y: real)
    | Image(x: real, y: real, width: real, height: real)
    | Rule(x1: real, y1: real, x2: real, y2: real)

  /** The size jsPDF reports for a page. */
  datatype PageSize = PageSize(width: real, height: real)

  const Margin: real := 20.0

  /**
   * Pages taller than their top and bottom margins, on which the screenshot loop ends in exact
   * arithmetic. Lengths are exact reals here; the code computes them in doubles.
   */
  type Page = p: PageSize | p.height > 2.0 * Margin witness PageSize(210.0, 297.0)

  /** Where the body starts on the first page, below the header. */
  const ContentTop: real := 80.0

  const Title := "AI Анализ Данных"
  const QueryLabel := "Запрос: "
  const DateLabel := "Дата создания: "

  /** The header of the first page: title, query, creation date and a separating rule. */
  function Header(query: string, formattedDate: string, page: Page): (ops: seq<Op>)
    ensures |ops| == 4 && ops[1].TextAt? && StartsWith(ops[1].content, QueryLabel)
    ensures ops[1].content[|QueryLabel|..] == query
  {
    [TextAt(Title, Margin, 30.0),
     TextAt(QueryLabel + query, Margin, 45.0),
     TextAt(DateLabel + formattedDate, Margin, 55.0),
     Rule(Margin, 65.0, page.width - Margin, 65.0)]
  }

  // ----- Screenshot pagination -----

  /** The height the first page takes off the screenshot: down to the bottom margin. */
  function FirstSlot(page: Page): real {
    page.height - ContentTop - Margin
  }

  /** The height every further page takes off the screenshot: between the two margins. */
  function NextSlot(page: Page): (s: real)
    ensures s > 0.0
  {
    page.height - 2.0 * Margin
  }

  /** How much of the screenshot's height the pages before page `k` (0-based) have taken. */
  function Consumed(k: nat, page: Page): real {
    if k == 0 then 0.0 else FirstSlot(page) + (k - 1) as real * NextSlot(page)
  }

  /**
   * `n` pages are the fewest whose share of the height reaches the bottom of the screenshot:
   * after them no height is left, and after `n - 1` of them some would be.
   */
  predicate PagesFit(n: nat, imageHeight: real, page: Page) {
    n >= 1 && imageHeight - Consumed(n, page) <= 0.0
    && (n == 1 || imageHeight - Consumed(n - 1, page) > 0.0)
  }

  /** Smallest integer not below `x`. */
  function Ceil(x: real): (c: int)
    ensures c as real >= x && (c - 1) as real < x
  {
    -((-x).Floor)
  }

  /** The number of pages the screenshot is spread over. */
  function PageCount(imageHeight: real, page: Page): (n: nat)
    ensures PagesFit(n, imageHeight, page)
  {
    if imageHeight <= FirstSlot(page) then 1
    else
      var d := imageHeight - FirstSlot(page);
      var c := Ceil(d / NextSlot(page));
      CeilTimes(d, NextSlot(page));
      1 + c
  }

  /** Scaling the rounded-up quotient back by the divisor brackets the dividend. */
  lemma CeilTimes(d: real, s: real)
    requires s > 0.0
    ensures Ceil(d / s) as real * s >= d && (Ceil(d / s) - 1) as real * s < d
  {
    var q := d / s;
    assert q * s == d;
    var c := Ceil(q);
    assert c as real * s >= q * s;
    var e := q - (c - 1) as real;
    PositiveProduct(e, s);
    assert e * s == q * s - (c - 1) as real * s;
    assert (c - 1) as real * s < d;
    assert (Ceil(d / s) - 1) as real == (c - 1) as real;
  }

  lemma PositiveProduct(a: real, b: real)
    requires a > 0.0 && b > 0.0
    ensures a * b > 0.0
  {
  }

  function Min(a: real, b: real): real {
    if a < b then a else b
  }

  /**
   * The screenshot on page `k` (0-based) as the export draws it: on the first page at the top
   * of the body, with the smaller of its height and the first page's share; on a later page
   * shifted up by the height already consumed, with the smaller of the height left and a full page's share.
   */
  function Placement(k: nat, imageWidth: real, imageHeight: real, page: Page): Op {
    if k == 0 then
      Image(Margin, ContentTop, imageWidth, Min(imageHeight, FirstSlot(page)))
    else
      var heightLeft := imageHeight - Consumed(k, page);
      Image(Margin, heightLeft - imageHeight + Margin, imageWidth, Min(heightLeft, NextSlot(page)))
  }

  /**
   * The export's loop for a screenshot of the given size: one image on the first page, then a
   * new page with one image while some height is left.
   */
  method PlaceScreenshot(imageWidth: real, imageHeight: real, page: Page) returns (placements: seq<Op>)
    ensures PagesFit(|placements|, imageHeight, page)
    ensures forall k :: 0 <= k < |placements| ==> placements[k] == Placement(k, imageWidth, imageHeight, page)
    ensures placements == ScreenshotPlacements(imageWidth, imageHeight, page)
  {
    var position := ContentTop;
    placements := [Image(Margin, position, imageWidth, Min(imageHeight, page.height - position - Margin))];
    var heightLeft := imageHeight - (page.height - position - Margin);
    ghost var bound := PageCount(imageHeight, page);
    while heightLeft > 0.0
      invariant 1 <= |placements| <= bound
      invariant heightLeft == imageHeight - Consumed(|placements|, page)
      invariant |placements| == 1 || imageHeight - Consumed(|placements| - 1, page) > 0.0
      invariant forall k :: 0 <= k < |placements| ==> placements[k] == Placement(k, imageWidth, imageHeight, page)
      decreases bound - |placements|
    {
      if |placements| == bound {
        assert false;
      }
      position := heightLeft - imageHeight + Margin;
      placements := placements + [Image(Margin, position, imageWidth, Min(heightLeft, page.height - 2.0 * Margin))];
      heightLeft := heightLeft - (page.height - 2.0 * Margin);
    }
    PagesFitUnique(|placements|, PageCount(imageHeight, page), imageHeight, page);
  }

  /** Only one number of pages is the fewest that reach the bottom of the screenshot. */
  lemma PagesFitUnique(n: nat, m: nat, imageHeight: real, page: Page)
    requires PagesFit(n, imageHeight, page) && PagesFit(m, imageHeight, page)
    ensures n == m
  {
    if n < m {
      ConsumedGrows(n, m - 1, page);
    } else if m < n {
      ConsumedGrows(m, n - 1, page);
    }
  }

  /** From the first page on, the consumed height only grows. */
  lemma ConsumedGrows(a: nat, b: nat, page: Page)
    requires 1 <= a <= b
    ensures Consumed(a, page) <= Consumed(b, page)
  {
    assert (b - a) as real * NextSlot(page) >= 0.0;
    assert (b - 1) as real * NextSlot(page) == (a - 1) as real * NextSlot(page) + (b - a) as real * NextSlot(page);
  }

  /** The screenshot's placement on every page. */
  function ScreenshotPlacements(imageWidth: real, imageHeight: real, page: Page): (ops: seq<Op>)
    ensures |ops| == PageCount(imageHeight, page)
    ensures PagesFit(|ops|, imageHeight, page)
    ensures forall k :: 0 <= k < |ops| ==> ops[k] == Placement(k, imageWidth, imageHeight, page)
    ensures forall k :: 0 <= k < |ops| ==> ops[k].Image?
  {
    var n := PageCount(imageHeight, page);
    seq(n, k requires 0 <= k < n => Placement(k, imageWidth, imageHeight, page))
  }

  /** A screenshot that fits the first page's share stays on the first page at its own height. */
  lemma FitsFirstPage(imageWidth: real, imageHeight: real, page: Page)
    requires imageHeight <= FirstSlot(page)
    ensures ScreenshotPlacements(imageWidth, imageHeight, page) == [Image(Margin, ContentTop, imageWidth, imageHeight)]
  {
  }

  /**
   * On every later page the screenshot is shifted up by the height already consumed and drawn
   * no higher than the space between the margins and no higher than what is left.
   */
  lemma ContinuationPlacement(k: nat, imageWidth: real, imageHeight: real, page: Page)
    requires 1 <= k < PageCount(imageHeight, page)
    ensures var op := Placement(k, imageWidth, imageHeight, page);
            op.y == Margin - Consumed(k, page)
            && 0.0 < op.height <= NextSlot(page) && op.height <= imageHeight - Consumed(k, page)
  {
    ConsumedBelowLast(k, PageCount(imageHeight, page), imageHeight, page);
  }

  /** The drawn heights of pages `k` onwards. */
  function DrawnFrom(k: nat, n: nat, imageWidth: real, imageHeight: real, page: Page): real
    decreases n - k
  {
    if k >= n then 0.0 else Placement(k, imageWidth, imageHeight, page).height + DrawnFrom(k + 1, n, imageWidth, imageHeight, page)
  }

  /** The heights drawn on all pages add up to the screenshot's height. */
  lemma DrawnHeightsAddUp(imageWidth: real, imageHeight: real, page: Page)
    ensures DrawnFrom(0, PageCount(imageHeight, page), imageWidth, imageHeight, page) == imageHeight
  {
    var n := PageCount(imageHeight, page);
    if n > 1 {
      DrawnFromTail(1, n, imageWidth, imageHeight, page);
    }
  }

  /** From a later page `k` on, the pages draw exactly the height left before page `k`. */
  lemma {:induction false} DrawnFromTail(k: nat, n: nat, imageWidth: real, imageHeight: real, page: Page)
    requires 1 <= k < n && PagesFit(n, imageHeight, page)
    ensures DrawnFrom(k, n, imageWidth, imageHeight, page) == imageHeight - Consumed(k, page)
    decreases n - k
  {
    ConsumedStep(k, page);
    if k + 1 < n {
      DrawnFromTail(k + 1, n, imageWidth, imageHeight, page);
      ConsumedBelowLast(k + 1, n, imageHeight, page);
    }
  }

  /** Every later page takes one full share. */
  lemma ConsumedStep(k: nat, page: Page)
    requires k >= 1
    ensures Consumed(k + 1, page) == Consumed(k, page) + NextSlot(page)
  {
    assert k as real * NextSlot(page) == (k - 1) as real * NextSlot(page) + NextSlot(page);
  }

  /** Before the last page, some height is still left. */
  lemma ConsumedBelowLast(k: nat, n: nat, imageHeight: real, page: Page)
    requires 1 <= k < n && PagesFit(n, imageHeight, page)
    ensures imageHeight - Consumed(k, page) > 0.0
  {
    assert (n - 1 - k) as real * NextSlot(page) >= 0.0;
  }

  // ----- Textual summary -----

  const Bullet := "• "
  const SectionX: real := Margin
  const BulletX: real := Margin + 5.0

  /** A text line drawn lower than this starts a new page first. */
  const BreakY: real := 250.0

  /** Where text continues on a new page. */
  const ContinueY: real := Margin + 20.0

  const MetricsTitle := "Ключевые метрики"
  const InsightsTitle := "Выводы и рекомендации"

  const Metrics: seq<string> := [
    "Общий доход: ₽2,847,500 (+12.5%)",
    "Активные клиенты: 15,243 (+8.2%)",
    "Конверсия: 3.24% (-2.1%)"]

  const Insights: seq<string> := [
    "Рост продаж: Положительная динамика с ростом на 12.5% за месяц",
    "Топ-категория: Электроника составляет 40% от общих продаж",
    "Внимание: Конверсия снизилась на 2.1%, требует оптимизации"]

  /** The width insights are wrapped to. */
  function WrapWidth(page: Page): real {
    page.width - 2.0 * Margin - 10.0
  }

  /** The PDF library's line splitter fixed to one width. */
  function WrapAt(wrap: (string, real) -> seq<string>, width: real): string -> seq<string> {
    s => wrap(s, width)
  }

  /** The document being written and the height of the next line on its last page. */
  datatype Cursor = Cursor(pages: seq<seq<Op>>, y: real)

  /** The texts of a page, in drawing order. */
  function PageTexts(ops: seq<Op>): seq<string> {
    if |ops| == 0 then []
    else PageTexts(ops[..|ops| - 1]) + (if ops[|ops| - 1].TextAt? then [ops[|ops| - 1].content] else [])
  }

  /** The texts of a document, page after page. */
  function Texts(pages: seq<seq<Op>>): seq<string> {
    if |pages| == 0 then []
    else Texts(pages[..|pages| - 1]) + PageTexts(pages[|pages| - 1])
  }

  /** No text is drawn below the page-break height. */
  predicate TextAboveBreak(pages: seq<seq<Op>>) {
    forall p, i :: 0 <= p < |pages| && 0 <= i < |pages[p]| && pages[p][i].TextAt? ==> pages[p][i].y <= BreakY
  }

  /**
   * `b` goes on writing the document `a`: the pages before `a`'s last are untouched, its last
   * page is only appended to, and new pages may follow.
   */
  predicate Continues(a: seq<seq<Op>>, b: seq<seq<Op>>) {
    0 < |a| <= |b|
    && (forall j :: 0 <= j < |a| - 1 ==> b[j] == a[j])
    && a[|a| - 1] <= b[|a| - 1]
  }

  lemma ContinuesRefl(a: seq<seq<Op>>)
    requires |a| > 0
    ensures Continues(a, a)
  {
    assert a[|a| - 1] <= a[|a| - 1];
  }

  lemma ContinuesTrans(a: seq<seq<Op>>, b: seq<seq<Op>>, c: seq<seq<Op>>)
    requires Continues(a, b) && Continues(b, c)
    ensures Continues(a, c)
  {
    forall j | 0 <= j < |a| - 1
      ensures c[j] == a[j]
    {
      assert j < |b| - 1;
    }
    if |a| < |b| {
      assert c[|a| - 1] == b[|a| - 1];
    }
  }

  /** A continued document keeps what its first page starts with. */
  lemma ContinuesFirstPage(a: seq<seq<Op>>, b: seq<seq<Op>>, start: seq<Op>)
    requires Continues(a, b) && start <= a[0]
    ensures start <= b[0]
  {
    if |a| > 1 {
      assert b[0] == a[0];
    }
  }

  /** Each string of `lines` behind a bullet. */
  function Bulleted(lines: seq<string>): (r: seq<string>)
    ensures |r| == |lines|
    ensures forall i :: 0 <= i < |lines| ==> r[i] == Bullet + lines[i]
  {
    if |lines| == 0 then [] else [Bullet + lines[0]] + Bulleted(lines[1..])
  }

  /** Draws a text on the last page at the cursor's height. */
  function Draw(c: Cursor, content: string, x: real): (r: Cursor)
    requires |c.pages| > 0
    ensures |r.pages| == |c.pages| > 0 && r.y == c.y
    ensures Texts(r.pages) == Texts(c.pages) + [content]
    ensures r.pages[..|r.pages| - 1] == c.pages[..|c.pages| - 1]
    ensures r.pages[|r.pages| - 1] == c.pages[|c.pages| - 1] + [TextAt(content, x, c.y)]
    ensures Continues(c.pages, r.pages)
  {
    var last := |c.pages| - 1;
    var r := c.(pages := c.pages[last := c.pages[last] + [TextAt(content, x, c.y)]]);
    assert r.pages[..last] == c.pages[..last];
    assert forall j :: 0 <= j < last ==> r.pages[j] == r.pages[..last][j];
    assert PageTexts(r.pages[last]) == PageTexts(c.pages[last]) + [content] by {
      assert r.pages[last][..|r.pages[last]| - 1] == c.pages[last];
    }
    r
  }

  /** Moves the cursor down. */
  function Advance(c: Cursor, dy: real): (r: Cursor)
    ensures r.pages == c.pages && r.y == c.y + dy
  {
    c.(y := c.y + dy)
  }

  /**
   * One wrapped insight line: when the cursor is below the break height, a new page first and the
   * line at its top; then the bulleted line at the cursor's height, and the cursor one line lower.
   */
  function PutLine(c: Cursor, line: string): (r: Cursor)
    requires |c.pages| > 0
    ensures var y := if c.y > BreakY then ContinueY else c.y;
            var last := if c.y > BreakY then [] else c.pages[|c.pages| - 1];
            |r.pages| == |c.pages| + (if c.y > BreakY then 1 else 0)
            && r.pages[|r.pages| - 1] == last + [TextAt(Bullet + line, BulletX, y)]
            && r.y == y + 6.0
    ensures Continues(c.pages, r.pages)
  {
    var c1 := if c.y > BreakY then Cursor(c.pages + [[]], ContinueY) else c;
    NewPageContinues(c.pages);
    ContinuesRefl(c.pages);
    ContinuesTrans(c.pages, c1.pages, Draw(c1, Bullet + line, BulletX).pages);
    Advance(Draw(c1, Bullet + line, BulletX), 6.0)
  }

  /** Starting a new page goes on writing the document. */
  lemma NewPageContinues(pages: seq<seq<Op>>)
    requires |pages| > 0
    ensures Continues(pages, pages + [[]])
  {
    assert forall j :: 0 <= j < |pages| ==> (pages + [[]])[j] == pages[j];
  }

  /** The wrapped lines of one insight, in order. */
  function PutLines(c: Cursor, lines: seq<string>): (r: Cursor)
    requires |c.pages| > 0
    ensures |r.pages| > 0
    decreases |lines|
  {
    if |lines| == 0 then c else PutLines(PutLine(c, lines[0]), lines[1..])
  }

  /** Every insight's wrapped lines followed by a small gap. */
  function PutInsights(c: Cursor, insights: seq<string>, wrap: string -> seq<string>): (r: Cursor)
    requires |c.pages| > 0
    ensures |r.pages| > 0
    decreases |insights|
  {
    if |insights| == 0 then c
    else PutInsights(Advance(PutLines(c, wrap(insights[0])), 3.0), insights[1..], wrap)
  }

  /** The metrics, one bulleted line each, without page breaks. */
  function PutMetrics(c: Cursor, metrics: seq<string>): (r: Cursor)
    requires |c.pages| > 0
    ensures |r.pages| == |c.pages|
    decreases |metrics|
  {
    if |metrics| == 0 then c else PutMetrics(Advance(Draw(c, Bullet + metrics[0], BulletX), 8.0), metrics[1..])
  }

  /** All wrapped lines of the insights, in order. */
  function WrappedLines(insights: seq<string>, wrap: string -> seq<string>): seq<string> {
    if |insights| == 0 then [] else wrap(insights[0]) + WrappedLines(insights[1..], wrap)
  }

  /**
   * The textual summary, written on the last page of `pages` from the top of the body down:
   * metrics, then insights wrapped to the page width with page breaks between lines. Earlier
   * pages are left as they are.
   */
  function TextualContent(pages: seq<seq<Op>>, wrap: string -> seq<string>): (r: seq<seq<Op>>)
    requires |pages| > 0
    ensures Continues(pages, r)
  {
    var c0 := Cursor(pages, ContentTop);
    var c1 := Advance(Draw(c0, MetricsTitle, SectionX), 15.0);
    var c2 := Advance(PutMetrics(c1, Metrics), 10.0);
    var c3 := Advance(Draw(c2, InsightsTitle, SectionX), 15.0);
    var r := PutInsights(c3, Insights, wrap).pages;
    TextualContinues(pages, wrap);
    r
  }

  /** Each step of the summary goes on writing the document it was given. */
  lemma TextualContinues(pages: seq<seq<Op>>, wrap: string -> seq<string>)
    requires |pages| > 0
    ensures var c0 := Cursor(pages, ContentTop);
            var c1 := Advance(Draw(c0, MetricsTitle, SectionX), 15.0);
            var c2 := Advance(PutMetrics(c1, Metrics), 10.0);
            var c3 := Advance(Draw(c2, InsightsTitle, SectionX), 15.0);
            Continues(pages, PutInsights(c3, Insights, wrap).pages)
  {
    var c0 := Cursor(pages, ContentTop);
    var c1 := Advance(Draw(c0, MetricsTitle, SectionX), 15.0);
    PutMetricsContinues(c1, Metrics);
    var c2 := Advance(PutMetrics(c1, Metrics), 10.0);
    var c3 := Advance(Draw(c2, InsightsTitle, SectionX), 15.0);
    ContinuesTrans(pages, c1.pages, c2.pages);
    ContinuesTrans(pages, c2.pages, c3.pages);
    PutInsightsContinues(c3, Insights, wrap);
    ContinuesTrans(pages, c3.pages, PutInsights(c3, Insights, wrap).pages);
  }

  lemma {:induction false} PutMetricsContinues(c: Cursor, metrics: seq<string>)
    requires |c.pages| > 0
    ensures Continues(c.pages, PutMetrics(c, metrics).pages)
    decreases |metrics|
  {
    if |metrics| == 0 {
      ContinuesRefl(c.pages);
    } else {
      var c1 := Advance(Draw(c, Bullet + metrics[0], BulletX), 8.0);
      PutMetricsContinues(c1, metrics[1..]);
      ContinuesTrans(c.pages, c1.pages, PutMetrics(c1, metrics[1..]).pages);
    }
  }

  lemma {:induction false} PutLinesContinues(c: Cursor, lines: seq<string>)
    requires |c.pages| > 0
    ensures Continues(c.pages, PutLines(c, lines).pages)
    decreases |lines|
  {
    if |lines| == 0 {
      ContinuesRefl(c.pages);
    } else {
      var c1 := PutLine(c, lines[0]);
      PutLinesContinues(c1, lines[1..]);
      ContinuesTrans(c.pages, c1.pages, PutLines(c1, lines[1..]).pages);
    }
  }

  lemma {:induction false} PutInsightsContinues(c: Cursor, insights: seq<string>, wrap: string -> seq<string>)
    requires |c.pages| > 0
    ensures Continues(c.pages, PutInsights(c, insights, wrap).pages)
    decreases |insights|
  {
    if |insights| == 0 {
      ContinuesRefl(c.pages);
    } else {
      PutLinesContinues(c, wrap(insights[0]));
      var c1 := Advance(PutLines(c, wrap(insights[0])), 3.0);
      PutInsightsContinues(c1, insights[1..], wrap);
      ContinuesTrans(c.pages, c1.pages, PutInsights(c1, insights[1..], wrap).pages);
    }
  }

  /** Adding a page does not change the document's texts. */
  lemma TextsOfNewPage(pages: seq<seq<Op>>)
    ensures Texts(pages + [[]]) == Texts(pages)
  {
    assert (pages + [[]])[..|pages|] == pages;
  }

  /** One insight line comes out bulleted after the texts before it. */
  lemma PutLineText(c: Cursor, line: string)
    requires |c.pages| > 0
    ensures Texts(PutLine(c, line).pages) == Texts(c.pages) + [Bullet + line]
  {
    if c.y > BreakY {
      TextsOfNewPage(c.pages);
    }
  }

  /** One insight line is drawn no lower than the break height, and earlier text stays put. */
  lemma PutLineAboveBreak(c: Cursor, line: string)
    requires |c.pages| > 0
    requires TextAboveBreak(c.pages)
    ensures TextAboveBreak(PutLine(c, line).pages)
  {
    var c1 := if c.y > BreakY then Cursor(c.pages + [[]], ContinueY) else c;
    if c.y > BreakY {
      NewPageAboveBreak(c.pages);
    }
    DrawAboveBreak(c1, Bullet + line, BulletX);
  }

  /** An empty new page adds no text. */
  lemma NewPageAboveBreak(pages: seq<seq<Op>>)
    requires TextAboveBreak(pages)
    ensures TextAboveBreak(pages + [[]])
  {
    var empty: seq<Op> := [];
    var r: seq<seq<Op>> := pages + [empty];
    forall p: int, i: int | 0 <= p < |r| && 0 <= i < |r[p]| && r[p][i].TextAt?
      ensures r[p][i].y <= BreakY
    {
      assert p < |pages| && r[p] == pages[p];
    }
  }

  /** Text drawn at a height no lower than the break height keeps the whole document above it. */
  lemma DrawAboveBreak(c: Cursor, content: string, x: real)
    requires |c.pages| > 0 && TextAboveBreak(c.pages) && c.y <= BreakY
    ensures TextAboveBreak(Draw(c, content, x).pages)
  {
    var r := Draw(c, content, x);
    var last := |r.pages| - 1;
    forall p, i | 0 <= p < |r.pages| && 0 <= i < |r.pages[p]| && r.pages[p][i].TextAt?
      ensures r.pages[p][i].y <= BreakY
    {
      if p < last {
        assert r.pages[p] == r.pages[..last][p] == c.pages[p];
      } else if i < |c.pages[last]| {
        assert r.pages[p][i] == c.pages[last][i];
      }
    }
  }

  /** Insight lines come out bulleted and in order. */
  lemma {:induction false} PutLinesTexts(c: Cursor, lines: seq<string>)
    requires |c.pages| > 0
    ensures Texts(PutLines(c, lines).pages) == Texts(c.pages) + Bulleted(lines)
    decreases |lines|
  {
    if |lines| > 0 {
      PutLineText(c, lines[0]);
      PutLinesTexts(PutLine(c, lines[0]), lines[1..]);
      assert Bulleted(lines) == [Bullet + lines[0]] + Bulleted(lines[1..]);
    }
  }

  /** Insight lines stay above the break height. */
  lemma {:induction false} PutLinesAboveBreak(c: Cursor, lines: seq<string>)
    requires |c.pages| > 0
    requires TextAboveBreak(c.pages)
    ensures TextAboveBreak(PutLines(c, lines).pages)
    decreases |lines|
  {
    if |lines| > 0 {
      PutLineAboveBreak(c, lines[0]);
      PutLinesAboveBreak(PutLine(c, lines[0]), lines[1..]);
    }
  }

  /** All insights' lines come out bulleted and in order. */
  lemma {:induction false} PutInsightsTexts(c: Cursor, insights: seq<string>, wrap: string -> seq<string>)
    requires |c.pages| > 0
    ensures Texts(PutInsights(c, insights, wrap).pages) == Texts(c.pages) + Bulleted(WrappedLines(insights, wrap))
    decreases |insights|
  {
    if |insights| > 0 {
      var lines := wrap(insights[0]);
      var rest := WrappedLines(insights[1..], wrap);
      PutLinesTexts(c, lines);
      var c1 := Advance(PutLines(c, lines), 3.0);
      PutInsightsTexts(c1, insights[1..], wrap);
      BulletedAppend(lines, rest);
    }
  }

  /** All insights' lines stay above the break height. */
  lemma {:induction false} PutInsightsAboveBreak(c: Cursor, insights: seq<string>, wrap: string -> seq<string>)
    requires |c.pages| > 0
    requires TextAboveBreak(c.pages)
    ensures TextAboveBreak(PutInsights(c, insights, wrap).pages)
    decreases |insights|
  {
    if |insights| > 0 {
      var lines := wrap(insights[0]);
      PutLinesAboveBreak(c, lines);
      PutInsightsAboveBreak(Advance(PutLines(c, lines), 3.0), insights[1..], wrap);
    }
  }

  lemma BulletedAppend(a: seq<string>, b: seq<string>)
    ensures Bulleted(a + b) == Bulleted(a) + Bulleted(b)
  {
    assert |Bulleted(a + b)| == |Bulleted(a) + Bulleted(b)|;
    forall i | 0 <= i < |a + b| ensures Bulleted(a + b)[i] == (Bulleted(a) + Bulleted(b))[i] {
      if i < |a| {
        assert (a + b)[i] == a[i];
      } else {
        assert (a + b)[i] == b[i - |a|];
      }
    }
  }

  /** Metrics come out bulleted and in order. */
  lemma {:induction false} PutMetricsTexts(c: Cursor, metrics: seq<string>)
    requires |c.pages| > 0
    ensures Texts(PutMetrics(c, metrics).pages) == Texts(c.pages) + Bulleted(metrics)
    decreases |metrics|
  {
    if |metrics| > 0 {
      var c1 := Advance(Draw(c, Bullet + metrics[0], BulletX), 8.0);
      PutMetricsTexts(c1, metrics[1..]);
      assert Bulleted(metrics) == [Bullet + metrics[0]] + Bulleted(metrics[1..]);
    }
  }

  /** The texts of the summary in order: the metrics title, the bulleted metrics, the insights title and every wrapped insight line bulleted. */
  function SummaryLines(wrap: string -> seq<string>): seq<string> {
    [MetricsTitle] + Bulleted(Metrics) + [InsightsTitle] + Bulleted(WrappedLines(Insights, wrap))
  }

  /**
   * The textual summary shows, after the document's texts so far, the summary's texts in order,
   * and no text below the break height, so none runs into the footer.
   */
  lemma TextualContentTexts(pages: seq<seq<Op>>, wrap: string -> seq<string>)
    requires |pages| > 0 && TextAboveBreak(pages)
    ensures Texts(TextualContent(pages, wrap)) == Texts(pages) + SummaryLines(wrap)
    ensures TextAboveBreak(TextualContent(pages, wrap))
  {
    TextualSteps(pages, wrap);
    AppendAfter(Texts(pages), [MetricsTitle], Bulleted(Metrics), [InsightsTitle], Bulleted(WrappedLines(Insights, wrap)));
  }

  /** Appending four pieces one after another appends their concatenation. */
  lemma AppendAfter(t: seq<string>, a: seq<string>, b: seq<string>, c: seq<string>, d: seq<string>)
    ensures t + a + b + c + d == t + (a + b + c + d)
  {
    assert t + a + b == t + (a + b);
    assert t + (a + b) + c == t + (a + b + c);
  }

  /** The summary's steps one by one: the metrics title, the metrics, the insights title, the insights. */
  lemma TextualSteps(pages: seq<seq<Op>>, wrap: string -> seq<string>)
    requires |pages| > 0 && TextAboveBreak(pages)
    ensures Texts(TextualContent(pages, wrap))
              == Texts(pages) + [MetricsTitle] + Bulleted(Metrics) + [InsightsTitle]
                 + Bulleted(WrappedLines(Insights, wrap))
    ensures TextAboveBreak(TextualContent(pages, wrap))
  {
    var c0 := Cursor(pages, ContentTop);
    DrawAboveBreak(c0, MetricsTitle, SectionX);
    var c1 := Advance(Draw(c0, MetricsTitle, SectionX), 15.0);
    PutMetricsTexts(c1, Metrics);
    PutMetricsAboveBreak(c1, Metrics);
    var c2 := Advance(PutMetrics(c1, Metrics), 10.0);
    DrawAboveBreak(c2, InsightsTitle, SectionX);
    var c3 := Advance(Draw(c2, InsightsTitle, SectionX), 15.0);
    PutInsightsTexts(c3, Insights, wrap);
    PutInsightsAboveBreak(c3, Insights, wrap);
  }

  /** Metrics drawn from height `c.y` stay above the break height when the last one does. */
  lemma {:induction false} PutMetricsAboveBreak(c: Cursor, metrics: seq<string>)
    requires |c.pages| > 0 && TextAboveBreak(c.pages)
    requires c.y + 8.0 * |metrics| as real <= BreakY + 8.0
    ensures TextAboveBreak(PutMetrics(c, metrics).pages)
    ensures PutMetrics(c, metrics).y == c.y + 8.0 * |metrics| as real
    decreases |metrics|
  {
    if |metrics| > 0 {
      var c1 := Advance(Draw(c, Bullet + metrics[0], BulletX), 8.0);
      assert TextAboveBreak(c1.pages);
      PutMetricsAboveBreak(c1, metrics[1..]);
    }
  }

  // ----- Footer -----

  const FooterNote := "Сгенерировано AI Аналитиком StudKemp"

  /** `Страница <i> из <n>`. */
  function PageLabel(i: nat, n: nat): string {
    "Страница " + NatToString(i) + " из " + NatToString(n)
  }

  /** The footer of page `i` (1-based) of `n`: a rule, the note and the page number. */
  function Footer(i: nat, n: nat, page: Page): seq<Op> {
    [Rule(Margin, page.height - 25.0, page.width - Margin, page.height - 25.0),
     TextAt(FooterNote, Margin, page.height - 15.0),
     TextAt(PageLabel(i, n), page.width - Margin - 30.0, page.height - 15.0)]
  }

  /** Appends to every page its footer, numbering pages from 1. */
  function AddFooter(pages: seq<seq<Op>>, page: Page): (r: seq<seq<Op>>)
    ensures |r| == |pages|
    ensures forall i :: 0 <= i < |pages| ==> pages[i] <= r[i] && r[i][|pages[i]|..] == Footer(i + 1, |pages|, page)
  {
    seq(|pages|, i requires 0 <= i < |pages| => pages[i] + Footer(i + 1, |pages|, page))
  }

  /** The page label names its page and the page count, read back as decimal numbers. */
  lemma PageLabelReadsBack(i: nat, n: nat)
    ensures var text := PageLabel(i, n);
            var a := NatToString(i); var b := NatToString(n);
            text == "Страница " + a + " из " + b && DigitsValue(a) == i && DigitsValue(b) == n
  {
    DigitsValueOfNatToString(i);
    DigitsValueOfNatToString(n);
  }

  /** Different pages of one document carry different labels. */
  lemma PageLabelsDistinct(i: nat, j: nat, n: nat)
    requires i != j
    ensures PageLabel(i, n) != PageLabel(j, n)
  {
    if PageLabel(i, n) == PageLabel(j, n) {
      var a := NatToString(i);
      var b := NatToString(j);
      var prefix := "Страница ";
      var rest := " из " + NatToString(n);
      assert PageLabel(i, n) == prefix + a + rest;
      assert PageLabel(j, n) == prefix + b + rest;
      NatToStringInjective(i, j);
      DigitsAreNotSpace(a);
      DigitsAreNotSpace(b);
      LabelNumberPrefix(prefix, a, b, rest);
      assert false;
    }
  }

  lemma DigitsAreNotSpace(s: string)
    requires IsDigits(s)
    ensures ' ' !in s
  {
  }

  /**
   * Two strings of digits followed by the same text that starts with a space are equal when the
   * whole strings are.
   */
  lemma LabelNumberPrefix(prefix: string, a: string, b: string, rest: string)
    requires ' ' !in a && ' ' !in b && |rest| > 0 && rest[0] == ' '
    requires prefix + a + rest == prefix + b + rest
    ensures a == b
  {
    var s := prefix + a + rest;
    assert s[|prefix|..] == a + rest;
    assert (prefix + b + rest)[|prefix|..] == b + rest;
    assert a == (a + rest)[..|a|];
    assert b == (b + rest)[..|b|];
  }

  // ----- File name and the whole export -----

  const FilePrefix := "ai-analysis-"
  const FileSuffix := ".pdf"

  /** `ai-analysis-<date>.pdf`, with the date part of an ISO 8601 timestamp. */
  function FileName(isoTimestamp: string): (name: string)
    ensures StartsWith(name, FilePrefix) && |name| >= |FilePrefix| + |FileSuffix|
    ensures name[|name| - |FileSuffix|..] == FileSuffix
  {
    FilePrefix + BeforeFirst(isoTimestamp, 'T') + FileSuffix
  }

  /** The date a file name carries. */
  function DateOfFileName(name: string): string
    requires |name| >= |FilePrefix| + |FileSuffix|
  {
    name[|FilePrefix|..|name| - |FileSuffix|]
  }

  /** The file name carries exactly the date part of a timestamp `<date>T<time>`. */
  lemma FileNameCarriesDate(date: string, time: string)
    requires 'T' !in date
    ensures DateOfFileName(FileName(date + "T" + time)) == date
  {
    var iso := date + "T" + time;
    BeforeFirstOfJoin(date, time);
    var name := FileName(iso);
    assert name == FilePrefix + date + FileSuffix;
    assert name[|FilePrefix|..|name| - |FileSuffix|] == date;
  }

  lemma BeforeFirstOfJoin(date: string, time: string)
    requires 'T' !in date
    ensures BeforeFirst(date + "T" + time, 'T') == date
  {
    var s := date + "T" + time;
    var r := BeforeFirst(s, 'T');
    assert s[|date|] == 'T';
    assert forall i :: 0 <= i < |date| ==> s[i] == date[i];
    assert |r| == |date|;
    assert r == s[..|r|];
    assert date == s[..|date|];
  }

  /** A positive number of pixels. */
  type PixelWidth = n: nat | n > 0 witness 1

  /**
   * What happens to the screenshot of the analysis element. Taking it and drawing it run in one
   * guarded block: a throw anywhere in that block falls back to the textual summary.
   */
  datatype Capture =
    | NoElement                                        // no element marked for export is on screen
    | CaptureFailed                                    // taking the screenshot threw
    | Captured(pixelWidth: PixelWidth, pixelHeight: nat)
    | DrawFailed(pixelWidth: PixelWidth, pixelHeight: nat, failsAt: nat, pageAdded: bool)
      // the screenshot was taken, but drawing placement `failsAt` (0-based) throws: adding its
      // page throws when `pageAdded` is false, and encoding or drawing the image after that when
      // it is true; a step the loop never reaches does not throw

  /** The parts of the export that depend on the outside world. */
  datatype ExportEnv = ExportEnv(
    formattedDate: string,   // the creation date as the front-end formats it
    isoTimestamp: string,    // the current time as an ISO 8601 timestamp
    page: Page,              // the page size the PDF library reports for its A4 format
    capture: Capture,
    pdfFails: bool)          // a call into the PDF library outside the screenshot block throws:
                             // creating the document, the header, the textual summary, the
                             // footer or saving

  /** A saved file. */
  datatype SavedPdf = SavedPdf(filename: string, pages: seq<seq<Op>>)

  const ExportFailedMessage := "Не удалось создать PDF файл"

  /** The width the screenshot is drawn at: the page between its side margins. */
  function ImageWidth(page: Page): real {
    page.width - 2.0 * Margin
  }

  /** The screenshot's height at the drawn width, keeping the captured aspect ratio. */
  function ImageHeight(w: PixelWidth, h: nat, page: Page): real {
    h as real * ImageWidth(page) / w as real
  }

  /**
   * The pages holding the given placements, one per page, the first below the header; only the
   * header's page when there is none.
   */
  function ScreenshotPages(header: seq<Op>, placements: seq<Op>): (pages: seq<seq<Op>>)
    ensures |pages| == if |placements| == 0 then 1 else |placements|
    ensures header <= pages[0]
    ensures |placements| == 0 ==> pages[0] == header
    ensures |placements| > 0 ==> pages[0] == header + [placements[0]]
    ensures forall k :: 1 <= k < |placements| ==> pages[k] == [placements[k]]
  {
    if |placements| == 0 then [header]
    else [header + [placements[0]]] + seq(|placements| - 1, k requires 0 <= k < |placements| - 1 => [placements[k + 1]])
  }

  /**
   * The fallback after drawing the screenshot throws: the pages of the placements drawn so far,
   * one more empty page when the page for the next placement was added, and the textual summary
   * on the last of them.
   */
  function DrawnThenText(header: seq<Op>, drawn: seq<Op>, pageAdded: bool, wrap: string -> seq<string>): (pages: seq<seq<Op>>)
    ensures |pages| >= 1 && header <= pages[0]
  {
    var done := ScreenshotPages(header, drawn);
    var current := if |drawn| > 0 && pageAdded then done + [[]] else done;
    NewPageContinues(done);
    ContinuesRefl(done);
    ContinuesFirstPage(done, current, header);
    var r := TextualContent(current, wrap);
    ContinuesFirstPage(current, r, header);
    r
  }

  /**
   * The document when drawing placement `k` throws: the complete screenshot when the loop never
   * gets that far, otherwise the fallback after the placements before it.
   */
  function FailedBody(header: seq<Op>, placements: seq<Op>, k: nat, pageAdded: bool, wrap: string -> seq<string>): (pages: seq<seq<Op>>)
    ensures |pages| >= 1 && header <= pages[0]
  {
    if k >= |placements| then ScreenshotPages(header, placements)
    else DrawnThenText(header, placements[..k], pageAdded, wrap)
  }

  /** The fallback's texts are the header's and then the summary's, none below the break height. */
  lemma DrawnThenTextTexts(header: seq<Op>, drawn: seq<Op>, pageAdded: bool, wrap: string -> seq<string>)
    requires TextAboveBreak([header])
    requires forall j :: 0 <= j < |drawn| ==> drawn[j].Image?
    ensures Texts(DrawnThenText(header, drawn, pageAdded, wrap)) == Texts([header]) + SummaryLines(wrap)
    ensures TextAboveBreak(DrawnThenText(header, drawn, pageAdded, wrap))
  {
    var done := ScreenshotPages(header, drawn);
    ScreenshotPagesTexts(header, drawn);
    ScreenshotPagesAboveBreak(header, drawn);
    if |drawn| > 0 && pageAdded {
      TextsOfNewPage(done);
      NewPageAboveBreak(done);
      TextualContentTexts(done + [[]], wrap);
    } else {
      TextualContentTexts(done, wrap);
    }
  }

  /** The fallback leaves every drawn placement on its page. */
  lemma DrawnThenTextKeepsDrawn(header: seq<Op>, drawn: seq<Op>, pageAdded: bool, wrap: string -> seq<string>)
    ensures var pages := DrawnThenText(header, drawn, pageAdded, wrap);
            |pages| >= |drawn|
            && (|drawn| > 0 ==> header + [drawn[0]] <= pages[0])
            && forall j :: 1 <= j < |drawn| ==> [drawn[j]] <= pages[j]
  {
    var done := ScreenshotPages(header, drawn);
    var current := if |drawn| > 0 && pageAdded then done + [[]] else done;
    var pages := DrawnThenText(header, drawn, pageAdded, wrap);
    NewPageContinues(done);
    ContinuesRefl(done);
    ContinuesTrans(done, current, pages);
    forall j | 0 <= j < |drawn|
      ensures done[j] <= pages[j]
    {
      if j < |done| - 1 {
        assert pages[j] == done[j];
      }
    }
  }

  /** The same for the first `k` of a list of placements. */
  lemma DrawnThenTextKeepsPrefix(header: seq<Op>, ps: seq<Op>, k: nat, pageAdded: bool, wrap: string -> seq<string>)
    requires k <= |ps|
    ensures var pages := DrawnThenText(header, ps[..k], pageAdded, wrap);
            |pages| >= k
            && (k > 0 ==> header + [ps[0]] <= pages[0])
            && forall j :: 1 <= j < k ==> [ps[j]] <= pages[j]
  {
    var drawn := ps[..k];
    var pages := DrawnThenText(header, drawn, pageAdded, wrap);
    DrawnThenTextKeepsDrawn(header, drawn, pageAdded, wrap);
    if k > 0 {
      assert drawn[0] == ps[0];
    }
    forall j | 1 <= j < k
      ensures [ps[j]] <= pages[j]
    {
      assert drawn[j] == ps[j];
    }
  }

  /**
   * The document body under the header: the screenshot; the textual summary when there is no
   * screenshot; and when drawing the screenshot throws part-way, the pages drawn so far with
   * the textual summary on the current page from the top of the body.
   */
  function Body(query: string, env: ExportEnv, wrap: (string, real) -> seq<string>): (pages: seq<seq<Op>>)
    ensures |pages| >= 1 && Header(query, env.formattedDate, env.page) <= pages[0]
  {
    var header := Header(query, env.formattedDate, env.page);
    var lineWrap := WrapAt(wrap, WrapWidth(env.page));
    match env.capture
    case Captured(w, h) =>
      ScreenshotPages(header, ScreenshotPlacements(ImageWidth(env.page), ImageHeight(w, h, env.page), env.page))
    case DrawFailed(w, h, k, pageAdded) =>
      FailedBody(header, ScreenshotPlacements(ImageWidth(env.page), ImageHeight(w, h, env.page), env.page), k, pageAdded, lineWrap)
    case _ => TextualContent([header], lineWrap)
  }

  /**
   * `exportAnalysisToPDF(query)`: the saved document or, when a PDF library call outside the
   * screenshot block throws, a rejection with the fixed message.
   */
  function Export(query: string, env: ExportEnv, wrap: (string, real) -> seq<string>): (r: Outcome<SavedPdf>)
    ensures r.Rejected? <==> env.pdfFails
    ensures r.Rejected? ==> r.message == ExportFailedMessage
    ensures r.Resolved? ==> r.value.filename == FileName(env.isoTimestamp) && |r.value.pages| >= 1
    ensures r.Resolved? ==> Header(query, env.formattedDate, env.page) <= r.value.pages[0]
  {
    if env.pdfFails then Rejected(ExportFailedMessage)
    else Resolved(SavedPdf(FileName(env.isoTimestamp), AddFooter(Body(query, env, wrap), env.page)))
  }

  /** The header draws no text below the break height. */
  lemma HeaderAboveBreak(query: string, formattedDate: string, page: Page)
    ensures TextAboveBreak([Header(query, formattedDate, page)])
  {
  }

  /**
   * With a screenshot, the document has one page per slot the scaled screenshot needs; the first
   * page holds the header and the first placement, every other page only its placement.
   */
  lemma ScreenshotBody(query: string, env: ExportEnv, wrap: (string, real) -> seq<string>)
    requires env.capture.Captured?
    ensures var h := ImageHeight(env.capture.pixelWidth, env.capture.pixelHeight, env.page);
            var w := ImageWidth(env.page);
            var pages := Body(query, env, wrap);
            |pages| == PageCount(h, env.page)
            && pages[0] == Header(query, env.formattedDate, env.page) + [Placement(0, w, h, env.page)]
            && forall k :: 1 <= k < |pages| ==> pages[k] == [Placement(k, w, h, env.page)]
  {
  }

  /** The texts of a textual export: the header's, then the summary's. */
  function SummaryTexts(query: string, env: ExportEnv, wrap: (string, real) -> seq<string>): seq<string> {
    [Title, QueryLabel + query, DateLabel + env.formattedDate] + SummaryLines(WrapAt(wrap, WrapWidth(env.page)))
  }

  /**
   * Without a screenshot, the document's texts are the header's, then the summary's, in order,
   * and none is below the break height.
   */
  lemma TextualBody(query: string, env: ExportEnv, wrap: (string, real) -> seq<string>)
    requires env.capture.NoElement? || env.capture.CaptureFailed?
    ensures Texts(Body(query, env, wrap)) == SummaryTexts(query, env, wrap)
    ensures TextAboveBreak(Body(query, env, wrap))
  {
    var header := Header(query, env.formattedDate, env.page);
    var lineWrap := WrapAt(wrap, WrapWidth(env.page));
    assert Body(query, env, wrap) == TextualContent([header], lineWrap);
    HeaderAboveBreak(query, env.formattedDate, env.page);
    TextualContentTexts([header], lineWrap);
    HeaderTexts(query, env.formattedDate, env.page);
  }

  /**
   * When drawing the screenshot throws at a placement the loop reaches, the placements drawn
   * before it stay on their pages.
   */
  lemma DrawFailureKeepsDrawn(query: string, env: ExportEnv, wrap: (string, real) -> seq<string>)
    requires env.capture.DrawFailed?
    requires env.capture.failsAt < PageCount(ImageHeight(env.capture.pixelWidth, env.capture.pixelHeight, env.page), env.page)
    ensures var ps := ScreenshotPlacements(ImageWidth(env.page), ImageHeight(env.capture.pixelWidth, env.capture.pixelHeight, env.page), env.page);
            var k := env.capture.failsAt;
            var pages := Body(query, env, wrap);
            |pages| >= k
            && (k > 0 ==> Header(query, env.formattedDate, env.page) + [ps[0]] <= pages[0])
            && (forall j :: 1 <= j < k ==> [ps[j]] <= pages[j])
  {
    var c := env.capture;
    var ps := ScreenshotPlacements(ImageWidth(env.page), ImageHeight(c.pixelWidth, c.pixelHeight, env.page), env.page);
    FailureBodyIsFallback(query, env, wrap);
    assert c.failsAt < |ps|;
    DrawnThenTextKeepsPrefix(Header(query, env.formattedDate, env.page), ps, c.failsAt, c.pageAdded, WrapAt(wrap, WrapWidth(env.page)));
  }

  /**
   * When drawing the screenshot throws at a placement the loop reaches, the document's texts are
   * exactly those of the textual export, none below the break height.
   */
  lemma DrawFailureTexts(query: string, env: ExportEnv, wrap: (string, real) -> seq<string>)
    requires env.capture.DrawFailed?
    requires env.capture.failsAt < PageCount(ImageHeight(env.capture.pixelWidth, env.capture.pixelHeight, env.page), env.page)
    ensures Texts(Body(query, env, wrap)) == SummaryTexts(query, env, wrap)
    ensures TextAboveBreak(Body(query, env, wrap))
  {
    var c := env.capture;
    var ps := ScreenshotPlacements(ImageWidth(env.page), ImageHeight(c.pixelWidth, c.pixelHeight, env.page), env.page);
    FailureBodyIsFallback(query, env, wrap);
    assert c.failsAt < |ps|;
    PlacementsAreImages(ps, c.failsAt);
    FallbackSummaryTexts(query, env, wrap, ps[..c.failsAt], c.pageAdded);
  }

  /** The fallback after any drawn images shows the same texts as the textual export. */
  lemma FallbackSummaryTexts(query: string, env: ExportEnv, wrap: (string, real) -> seq<string>, drawn: seq<Op>, pageAdded: bool)
    requires forall j :: 0 <= j < |drawn| ==> drawn[j].Image?
    ensures var pages := DrawnThenText(Header(query, env.formattedDate, env.page), drawn, pageAdded, WrapAt(wrap, WrapWidth(env.page)));
            Texts(pages) == SummaryTexts(query, env, wrap) && TextAboveBreak(pages)
  {
    var header := Header(query, env.formattedDate, env.page);
    HeaderAboveBreak(query, env.formattedDate, env.page);
    HeaderTexts(query, env.formattedDate, env.page);
    DrawnThenTextTexts(header, drawn, pageAdded, WrapAt(wrap, WrapWidth(env.page)));
  }

  /** A drawing failure gives the document `FailedBody` describes for the scaled screenshot's placements. */
  lemma FailureBodyIsFallback(query: string, env: ExportEnv, wrap: (string, real) -> seq<string>)
    requires env.capture.DrawFailed?
    ensures var ps := ScreenshotPlacements(ImageWidth(env.page), ImageHeight(env.capture.pixelWidth, env.capture.pixelHeight, env.page), env.page);
            Body(query, env, wrap)
              == FailedBody(Header(query, env.formattedDate, env.page), ps, env.capture.failsAt,
                            env.capture.pageAdded, WrapAt(wrap, WrapWidth(env.page)))
  {
  }

  /** Every placement of the screenshot draws the image and no text. */
  lemma PlacementsAreImages(ps: seq<Op>, k: nat)
    requires k <= |ps|
    requires forall j :: 0 <= j < |ps| ==> ps[j].Image?
    ensures forall j :: 0 <= j < k ==> ps[..k][j].Image?
  {
  }

  /** A failure at a step the loop never reaches leaves the complete screenshot. */
  lemma UnreachedFailureIsHarmless(query: string, env: ExportEnv, wrap: (string, real) -> seq<string>)
    requires env.capture.DrawFailed?
    requires env.capture.failsAt >= PageCount(ImageHeight(env.capture.pixelWidth, env.capture.pixelHeight, env.page), env.page)
    ensures Body(query, env, wrap) == Body(query, env.(capture := Captured(env.capture.pixelWidth, env.capture.pixelHeight)), wrap)
  {
  }

  /** Pages of placements carry no texts beyond the header's. */
  lemma {:induction false} ScreenshotPagesTexts(header: seq<Op>, placements: seq<Op>)
    requires forall j :: 0 <= j < |placements| ==> placements[j].Image?
    ensures Texts(ScreenshotPages(header, placements)) == Texts([header])
    decreases |placements|
  {
    var pages := ScreenshotPages(header, placements);
    if |placements| == 1 {
      assert pages == [header + [placements[0]]];
      assert (header + [placements[0]])[..|header|] == header;
      assert pages[..0] == [header][..0];
    } else if |placements| > 1 {
      var n := |placements|;
      var init := placements[..n - 1];
      ScreenshotPagesTexts(header, init);
      var before := ScreenshotPages(header, init);
      assert Texts(pages) == Texts(pages[..n - 1]) + PageTexts(pages[n - 1]);
      assert pages[..n - 1] == before by {
        forall j | 0 <= j < n - 1 ensures pages[j] == before[j] {
          if j > 0 {
            assert before[j] == [init[j]];
          }
        }
      }
      assert pages[n - 1] == [placements[n - 1]];
      assert [placements[n - 1]][..0] == [];
      assert PageTexts([placements[n - 1]]) == [];
    }
  }

  /** Pages of placements below the header carry no text below the break height. */
  lemma ScreenshotPagesAboveBreak(header: seq<Op>, placements: seq<Op>)
    requires TextAboveBreak([header])
    requires forall j :: 0 <= j < |placements| ==> placements[j].Image?
    ensures TextAboveBreak(ScreenshotPages(header, placements))
  {
    var pages: seq<seq<Op>> := ScreenshotPages(header, placements);
    forall p: int, i: int | 0 <= p < |pages| && 0 <= i < |pages[p]| && pages[p][i].TextAt?
      ensures pages[p][i].y <= BreakY
    {
      if p == 0 {
        assert [header][0] == header;
        assert i < |header| && pages[p][i] == header[i];
      }
    }
  }

  /** The header's texts are the title, the query line and the date line. */
  lemma HeaderTexts(query: string, formattedDate: string, page: Page)
    ensures Texts([Header(query, formattedDate, page)]) == [Title, QueryLabel + query, DateLabel + formattedDate]
  {
    var header := Header(query, formattedDate, page);
    var empty: seq<seq<Op>> := [];
    assert [header][..0] == empty;
    assert header[..4][..3] == header[..3];
    assert header[..3][..2] == header[..2];
    assert header[..2][..1] == header[..1];
    assert header[..1][..0] == [];
    assert PageTexts(header[..1]) == [Title];
    assert PageTexts(header[..2]) == [Title, QueryLabel + query];
    assert PageTexts(header[..3]) == [Title, QueryLabel + query, DateLabel + formattedDate];
    assert header[..4] == header;
  }

  /** Every page of a saved document ends with the footer that numbers it among all pages. */
  lemma ExportNumbersPages(query: string, env: ExportEnv, wrap: (string, real) -> seq<string>)
    requires !env.pdfFails
    ensures var pages := Export(query, env, wrap).value.pages;
            var body := Body(query, env, wrap);
            |pages| == |body|
            && forall i :: 0 <= i < |pages| ==> pages[i] == body[i] + Footer(i + 1, |body|, env.page)
  {
  }
}

=== FILE: regions.dfy ===
/**
 * The two static region tables of the front-end and the lookups over them:
 *  - `regionsData`, the heatmap's table from map code to display data
 *    (src/components/russia-heatmap.tsx), read by the map's styling pass;
 *  - `regionMap` inside `getRegionCode`, from a region's Russian name to its map code
 *    (src/lib/api.ts).
 * Both are JavaScript object literals. Reading a key returns the value written last for it,
 * which `LastIndexOf` finds by scanning from the end. Every key of
 * `regionsData` equals its entry's `id`, so entries are stored without their keys.
 * Both tables have 83 entries. Rows are written as functions of their position so that the solver can case-split on them.
 */
module Regions {
  import opened Wrappers
  import opened Text
  import opened Palette

  /** A heatmap entry: map code, display name, activity value (percent) and fill colour. */
  datatype RegionData = RegionData(id: string, name: string, value: nat, color: string)

  /** A row of `getRegionCode`'s `regionMap`: a region's Russian name and its map code. */
  datatype NameCode = NameCode(name: string, code: string)

  /** Entry `i` of `regionsData`, in source order. */
  function HeatRow(i: nat): RegionData
    requires i < 83
  {
    if i < 10 then HeatRows0(i)
    else if i < 20 then HeatRows1(i - 10)
    else if i < 30 then HeatRows2(i - 20)
    else if i < 40 then HeatRows3(i - 30)
    else if i < 50 then HeatRows4(i - 40)
    else if i < 60 then HeatRows5(i - 50)
    else if i < 70 then HeatRows6(i - 60)
    else if i < 80 then HeatRows7(i - 70)
    else HeatRows8(i - 80)
  }

  /** The heatmap's table as a sequence of entries. */
  function RegionsData(): seq<RegionData> {
    seq(83, i requires 0 <= i < 83 => HeatRow(i))
  }

  /** Entry `j` of `getRegionCode`'s `regionMap`, in source order. */
  function ApiRow(j: nat): NameCode
    requires j < 83
  {
    if j < 10 then ApiRows0(j)
    else if j < 20 then ApiRows1(j - 10)
    else if j < 30 then ApiRows2(j - 20)
    else if j < 40 then ApiRows3(j - 30)
    else if j < 50 then ApiRows4(j - 40)
    else if j < 60 then ApiRows5(j - 50)
    else if j < 70 then ApiRows6(j - 60)
    else if j < 80 then ApiRows7(j - 70)
    else ApiRows8(j - 80)
  }

  /** `getRegionCode`'s table as a sequence of rows. */
  function RegionMap(): seq<NameCode> {
    seq(83, j requires 0 <= j < 83 => ApiRow(j))
  }

  /** Position of the last row of `rows` whose key is `key`, or -1 when there is none. */
  function LastIndexOf<T>(rows: seq<T>, keyOf: T -> string, key: string): (k: int)
    ensures -1 <= k < |rows|
    ensures k >= 0 ==> keyOf(rows[k]) == key
    ensures forall j :: k < j < |rows| ==> keyOf(rows[j]) != key
  {
    if |rows| == 0 then -1
    else if keyOf(rows[|rows| - 1]) == key then |rows| - 1
    else LastIndexOf(rows[..|rows| - 1], keyOf, key)
  }

  /** `table[id]` on a table keyed by entry id: the entry written last for that id, if any. */
  function Find(table: seq<RegionData>, id: string): (r: Option<RegionData>)
    ensures r.None? <==> forall i :: 0 <= i < |table| ==> table[i].id != id
    ensures r.Some? ==> r.value in table && r.value.id == id
  {
    var k := LastIndexOf(table, (d: RegionData) => d.id, id);
    if k < 0 then None else Some(table[k])
  }

  /**
   * `getRegionCode(regionName)` as its author meant it: the code listed for the name, or
   * `None` (the source's `null`) for every name the table does not list.
   */
  function RegionCode(name: string): (r: Option<string>)
    ensures r.None? <==> forall j :: 0 <= j < 83 ==> ApiRow(j).name != name
    ensures r.Some? ==> exists j :: 0 <= j < 83 && ApiRow(j) == NameCode(name, r.value)
  {
    var k := LastIndexOf(RegionMap(), (row: NameCode) => row.name, name);
    assert forall j :: 0 <= j < 83 ==> RegionMap()[j] == ApiRow(j);
    if k < 0 then None else Some(RegionMap()[k].code)
  }

  /** Position in `regionsData` of the entry that `regionMap` row `j` names (a proof witness). */
  ghost function ApiRowHeatIndex(j: nat): nat
    requires j < 83
  {
    if j < 10 then ApiRowHeatIndices0(j)
    else if j < 20 then ApiRowHeatIndices1(j - 10)
    else if j < 30 then ApiRowHeatIndices2(j - 20)
    else if j < 40 then ApiRowHeatIndices3(j - 30)
    else if j < 50 then ApiRowHeatIndices4(j - 40)
    else if j < 60 then ApiRowHeatIndices5(j - 50)
    else if j < 70 then ApiRowHeatIndices6(j - 60)
    else if j < 80 then ApiRowHeatIndices7(j - 70)
    else ApiRowHeatIndices8(j - 80)
  }

  /** Position in `regionMap` of the row naming `regionsData` entry `i` (a proof witness). */
  ghost function HeatRowApiIndex(i: nat): nat
    requires i < 83
  {
    if i < 10 then HeatRowApiIndices0(i)
    else if i < 20 then HeatRowApiIndices1(i - 10)
    else if i < 30 then HeatRowApiIndices2(i - 20)
    else if i < 40 then HeatRowApiIndices3(i - 30)
    else if i < 50 then HeatRowApiIndices4(i - 40)
    else if i < 60 then HeatRowApiIndices5(i - 50)
    else if i < 70 then HeatRowApiIndices6(i - 60)
    else if i < 80 then HeatRowApiIndices7(i - 70)
    else HeatRowApiIndices8(i - 80)
  }

  /** Entries 0..9. */
  function HeatRows0(k: nat): RegionData
    requires k < 10
  {
    match k
    case 0 => RegionData("RU-AD", "Республика Адыгея", 75, "#3b82f6")
    case 1 => RegionData("RU-AL", "Республика Алтай", 45, "#60a5fa")
    case 2 => RegionData("RU-ALT", "Алтайский край", 65, "#2563eb")
    case 3 => RegionData("RU-AMU", "Амурская область", 55, "#60a5fa")
    case 4 => RegionData("RU-ARK", "Архангельская область", 70, "#3b82f6")
    case 5 => RegionData("RU-AST", "Астраханская область", 80, "#1d4ed8")
    case 6 => RegionData("RU-BA", "Республика Башкортостан", 85, "#1e40af")
    case 7 => RegionData("RU-BEL", "Белгородская область", 90, "#1e3a8a")
    case 8 => RegionData("RU-BRY", "Брянская область", 60, "#60a5fa")
    case _ => RegionData("RU-BU", "Республика Бурятия", 50, "#93c5fd")
  }

  /** Entries 10..19. */
  function HeatRows1(k: nat): RegionData
    requires k < 10
  {
    match k
    case 0 => RegionData("RU-CE", "Чеченская Республика", 40, "#93c5fd")
    case 1 => RegionData("RU-CHE", "Челябинская область", 85, "#1e40af")
    case 2 => RegionData("RU-CHU", "Чукотский автономный округ", 25, "#dbeafe")
    case 3 => RegionData("RU-CU", "Чувашская Республика", 75, "#3b82f6")
    case 4 => RegionData("RU-DA", "Республика Дагестан", 65, "#2563eb")
    case 5 => RegionData("RU-IN", "Республика Ингушетия", 45, "#60a5fa")
    case 6 => RegionData("RU-IRK", "Иркутская область", 70, "#3b82f6")
    case 7 => RegionData("RU-IVA", "Ивановская область", 55, "#60a5fa")
    case 8 => RegionData("RU-KAM", "Камчатский край", 35, "#93c5fd")
    case _ => RegionData("RU-KB", "Кабардино-Балкарская Республика", 50, "#93c5fd")
  }

  /** Entries 20..29. */
  function HeatRows2(k: nat): RegionData
    requires k < 10
  {
    match k
    case 0 => RegionData("RU-KC", "Карачаево-Черкесская Республика", 55, "#60a5fa")
    case 1 => RegionData("RU-KDA", "Краснодарский край", 90, "#1e3a8a")
    case 2 => RegionData("RU-KEM", "Кемеровская область", 80, "#1d4ed8")
    case 3 => RegionData("RU-KGD", "Калининградская область", 85, "#1e40af")
    case 4 => RegionData("RU-KGN", "Курганская область", 45, "#60a5fa")
    case 5 => RegionData("RU-KHA", "Хабаровский край", 60, "#60a5fa")
    case 6 => RegionData("RU-KHM", "Ханты-Мансийский автономный округ", 95, "#1e3a8a")
    case 7 => RegionData("RU-KIR", "Кировская область", 65, "#2563eb")
    case 8 => RegionData("RU-KK", "Республика Хакасия", 55, "#60a5fa")
    case _ => RegionData("RU-KL", "Республика Калмыкия", 40, "#93c5fd")
  }

  /** Entries 30..39. */
  function HeatRows3(k: nat): RegionData
    requires k < 10
  {
    match k
    case 0 => RegionData("RU-KLU", "Калужская область", 80, "#1d4ed8")
    case 1 => RegionData("RU-KO", "Республика Коми", 60, "#60a5fa")
    case 2 => RegionData("RU-KOS", "Костромская область", 50, "#93c5fd")
    case 3 => RegionData("RU-KR", "Республика Карелия", 65, "#2563eb")
    case 4 => RegionData("RU-KRS", "Курская область", 70, "#3b82f6")
    case 5 => RegionData("RU-KYA", "Красноярский край", 75, "#3b82f6")
    case 6 => RegionData("RU-LEN", "Ленинградская область", 85, "#1e40af")
    case 7 => RegionData("RU-LIP", "Липецкая область", 75, "#3b82f6")
    case 8 => RegionData("RU-MAG", "Магаданская область", 30, "#dbeafe")
    case _ => RegionData("RU-ME", "Республика Марий Эл", 60, "#60a5fa")
  }

  /** Entries 40..49. */
  function HeatRows4(k: nat): RegionData
    requires k < 10
  {
    match k
    case 0 => RegionData("RU-MO", "Республика Мордовия", 65, "#2563eb")
    case 1 => RegionData("RU-MOS", "Московская область", 95, "#1e3a8a")
    case 2 => RegionData("RU-MOW", "Москва", 100, "#172554")
    case 3 => RegionData("RU-MUR", "Мурманская область", 70, "#3b82f6")
    case 4 => RegionData("RU-NEN", "Ненецкий автономный округ", 35, "#93c5fd")
    case 5 => RegionData("RU-NGR", "Новгородская область", 55, "#60a5fa")
    case 6 => RegionData("RU-NIZ", "Нижегородская область", 85, "#1e40af")
    case 7 => RegionData("RU-NVS", "Новосибирская область", 80, "#1d4ed8")
    case 8 => RegionData("RU-OMS", "Омская область", 70, "#3b82f6")
    case _ => RegionData("RU-ORE", "Оренбургская область", 75, "#3b82f6")
  }

  /** Entries 50..59. */
  function HeatRows5(k: nat): RegionData
    requires k < 10
  {
    match k
    case 0 => RegionData("RU-ORL", "Орловская область", 60, "#60a5fa")
    case 1 => RegionData("RU-PER", "Пермский край", 80, "#1d4ed8")
    case 2 => RegionData("RU-PNZ", "Пензенская область", 65, "#2563eb")
    case 3 => RegionData("RU-PRI", "Приморский край", 70, "#3b82f6")
    case 4 => RegionData("RU-PSK", "Псковская область", 50, "#93c5fd")
    case 5 => RegionData("RU-ROS", "Ростовская область", 85, "#1e40af")
    case 6 => RegionData("RU-RYA", "Рязанская область", 70, "#3b82f6")
    case 7 => RegionData("RU-SA", "Республика Саха (Якутия)", 45, "#60a5fa")
    case 8 => RegionData("RU-SAK", "Сахалинская область", 65, "#2563eb")
    case _ => RegionData("RU-SAM", "Самарская область", 85, "#1e40af")
  }

  /** Entries 60..69. */
  function HeatRows6(k: nat): RegionData
    requires k < 10
  {
    match k
    case 0 => RegionData("RU-SAR", "Саратовская область", 75, "#3b82f6")
    case 1 => RegionData("RU-SE", "Республика Северная Осетия — Алания", 55, "#60a5fa")
    case 2 => RegionData("RU-SMO", "Смоленская область", 60, "#60a5fa")
    case 3 => RegionData("RU-SPE", "Санкт-Петербург", 95, "#1e3a8a")
    case 4 => RegionData("RU-STA", "Ставропольский край", 75, "#3b82f6")
    case 5 => RegionData("RU-SVE", "Свердловская область", 85, "#1e40af")
    case 6 => RegionData("RU-TAM", "Тамбовская область", 65, "#2563eb")
    case 7 => RegionData("RU-TA", "Республика Татарстан", 90, "#1e3a8a")
    case 8 => RegionData("RU-TOM", "Томская область", 70, "#3b82f6")
    case _ => RegionData("RU-TUL", "Тульская область", 80, "#1d4ed8")
  }

  /** Entries 70..79. */
  function HeatRows7(k: nat): RegionData
    requires k < 10
  {
    match k
    case 0 => RegionData("RU-TVE", "Тверская область", 65, "#2563eb")
    case 1 => RegionData("RU-TY", "Республика Тыва", 35, "#93c5fd")
    case 2 => RegionData("RU-TYU", "Тюменская область", 85, "#1e40af")
    case 3 => RegionData("RU-UD", "Удмуртская Республика", 70, "#3b82f6")
    case 4 => RegionData("RU-ULY", "Ульяновская область", 65, "#2563eb")
    case 5 => RegionData("RU-VGG", "Волгоградская область", 75, "#3b82f6")
    case 6 => RegionData("RU-VLA", "Владимирская область", 70, "#3b82f6")
    case 7 => RegionData("RU-VLG", "Вологодская область", 60, "#60a5fa")
    case 8 => RegionData("RU-VOR", "Воронежская область", 80, "#1d4ed8")
    case _ => RegionData("RU-YAN", "Ямало-Ненецкий автономный округ", 90, "#1e3a8a")
  }

  /** Entries 80..82. */
  function HeatRows8(k: nat): RegionData
    requires k < 3
  {
    match k
    case 0 => RegionData("RU-YAR", "Ярославская область", 75, "#3b82f6")
    case 1 => RegionData("RU-YEV", "Еврейская автономная область", 40, "#93c5fd")
    case _ => RegionData("RU-ZAB", "Забайкальский край", 50, "#93c5fd")
  }

  /** Rows 0..9. */
  function ApiRows0(k: nat): NameCode
    requires k < 10
  {
    match k
    case 0 => NameCode("Москва", "RU-MOW")
    case 1 => NameCode("Санкт-Петербург", "RU-SPE")
    case 2 => NameCode("Московская область", "RU-MOS")
    case 3 => NameCode("Ленинградская область", "RU-LEN")
    case 4 => NameCode("Республика Адыгея", "RU-AD")
    case 5 => NameCode("Республика Алтай", "RU-AL")
    case 6 => NameCode("Алтайский край", "RU-ALT")
    case 7 => NameCode("Амурская область", "RU-AMU")
    case 8 => NameCode("Архангельская область", "RU-ARK")
    case _ => NameCode("Астраханская область", "RU-AST")
  }

  /** Rows 10..19. */
  function ApiRows1(k: nat): NameCode
    requires k < 10
  {
    match k
    case 0 => NameCode("Республика Башкортостан", "RU-BA")
    case 1 => NameCode("Белгородская область", "RU-BEL")
    case 2 => NameCode("Брянская область", "RU-BRY")
    case 3 => NameCode("Республика Бурятия", "RU-BU")
    case 4 => NameCode("Чеченская Республика", "RU-CE")
    case 5 => NameCode("Челябинская область", "RU-CHE")
    case 6 => NameCode("Чукотский автономный округ", "RU-CHU")
    case 7 => NameCode("Чувашская Республика", "RU-CU")
    case 8 => NameCode("Республика Дагестан", "RU-DA")
    case _ => NameCode("Республика Ингушетия", "RU-IN")
  }

  /** Rows 20..29. */
  function ApiRows2(k: nat): NameCode
    requires k < 10
  {
    match k
    case 0 => NameCode("Иркутская область", "RU-IRK")
    case 1 => NameCode("Ивановская область", "RU-IVA")
    case 2 => NameCode("Камчатский край", "RU-KAM")
    case 3 => NameCode("Кабардино-Балкарская Республика", "RU-KB")
    case 4 => NameCode("Карачаево-Черкесская Республика", "RU-KC")
    case 5 => NameCode("Краснодарский край", "RU-KDA")
    case 6 => NameCode("Кемеровская область", "RU-KEM")
    case 7 => NameCode("Калининградская область", "RU-KGD")
    case 8 => NameCode("Курганская область", "RU-KGN")
    case _ => NameCode("Хабаровский край", "RU-KHA")
  }

  /** Rows 30..39. */
  function ApiRows3(k: nat): NameCode
    requires k < 10
  {
    match k
    case 0 => NameCode("Ханты-Мансийский автономный округ", "RU-KHM")
    case 1 => NameCode("Кировская область", "RU-KIR")
    case 2 => NameCode("Республика Хакасия", "RU-KK")
    case 3 => NameCode("Республика Калмыкия", "RU-KL")
    case 4 => NameCode("Калужская область", "RU-KLU")
    case 5 => NameCode("Республика Коми", "RU-KO")
    case 6 => NameCode("Костромская область", "RU-KOS")
    case 7 => NameCode("Республика Карелия", "RU-KR")
    case 8 => NameCode("Курская область", "RU-KRS")
    case _ => NameCode("Красноярский край", "RU-KYA")
  }

  /** Rows 40..49. */
  function ApiRows4(k: nat): NameCode
    requires k < 10
  {
    match k
    case 0 => NameCode("Липецкая область", "RU-LIP")
    case 1 => NameCode("Магаданская область", "RU-MAG")
    case 2 => NameCode("Республика Марий Эл", "RU-ME")
    case 3 => NameCode("Республика Мордовия", "RU-MO")
    case 4 => NameCode("Мурманская область", "RU-MUR")
    case 5 => NameCode("Ненецкий автономный округ", "RU-NEN")
    case 6 => NameCode("Новгородская область", "RU-NGR")
    case 7 => NameCode("Нижегородская область", "RU-NIZ")
    case 8 => NameCode("Новосибирская область", "RU-NVS")
    case _ => NameCode("Омская область", "RU-OMS")
  }

  /** Rows 50..59. */
  function ApiRows5(k: nat): NameCode
    requires k < 10
  {
    match k
    case 0 => NameCode("Оренбургская область", "RU-ORE")
    case 1 => NameCode("Орловская область", "RU-ORL")
    case 2 => NameCode("Пермский край", "RU-PER")
    case 3 => NameCode("Пензенская область", "RU-PNZ")
    case 4 => NameCode("Приморский край", "RU-PRI")
    case 5 => NameCode("Псковская область", "RU-PSK")
    case 6 => NameCode("Ростовская область", "RU-ROS")
    case 7 => NameCode("Рязанская область", "RU-RYA")
    case 8 => NameCode("Республика Саха (Якутия)", "RU-SA")
    case _ => NameCode("Сахалинская область", "RU-SAK")
  }

  /** Rows 60..69. */
  function ApiRows6(k: nat): NameCode
    requires k < 10
  {
    match k
    case 0 => NameCode("Самарская область", "RU-SAM")
    case 1 => NameCode("Саратовская область", "RU-SAR")
    case 2 => NameCode("Республика Северная Осетия — Алания", "RU-SE")
    case 3 => NameCode("Смоленская область", "RU-SMO")
    case 4 => NameCode("Ставропольский край", "RU-STA")
    case 5 => NameCode("Свердловская область", "RU-SVE")
    case 6 => NameCode("Тамбовская область", "RU-TAM")
    case 7 => NameCode("Республика Татарстан", "RU-TA")
    case 8 => NameCode("Томская область", "RU-TOM")
    case _ => NameCode("Тульская область", "RU-TUL")
  }

  /** Rows 70..79. */
  function ApiRows7(k: nat): NameCode
    requires k < 10
  {
    match k
    case 0 => NameCode("Тверская область", "RU-TVE")
    case 1 => NameCode("Республика Тыва", "RU-TY")
    case 2 => NameCode("Тюменская область", "RU-TYU")
    case 3 => NameCode("Удмуртская Республика", "RU-UD")
    case 4 => NameCode("Ульяновская область", "RU-ULY")
    case 5 => NameCode("Волгоградская область", "RU-VGG")
    case 6 => NameCode("Владимирская область", "RU-VLA")
    case 7 => NameCode("Вологодская область", "RU-VLG")
    case 8 => NameCode("Воронежская область", "RU-VOR")
    case _ => NameCode("Ямало-Ненецкий автономный округ", "RU-YAN")
  }

  /** Rows 80..82. */
  function ApiRows8(k: nat): NameCode
    requires k < 3
  {
    match k
    case 0 => NameCode("Ярославская область", "RU-YAR")
    case 1 => NameCode("Еврейская автономная область", "RU-YEV")
    case _ => NameCode("Забайкальский край", "RU-ZAB")
  }

  /** Witnesses for rows 0..9. */
  ghost function ApiRowHeatIndices0(k: nat): nat
    requires k < 10
  {
    match k
    case 0 => 42
    case 1 => 63
    case 2 => 41
    case 3 => 36
    case 4 => 0
    case 5 => 1
    case 6 => 2
    case 7 => 3
    case 8 => 4
    case _ => 5
  }

  /** Witnesses for rows 10..19. */
  ghost function ApiRowHeatIndices1(k: nat): nat
    requires k < 10
  {
    match k
    case 0 => 6
    case 1 => 7
    case 2 => 8
    case 3 => 9
    case 4 => 10
    case 5 => 11
    case 6 => 12
    case 7 => 13
    case 8 => 14
    case _ => 15
  }

  /** Witnesses for rows 20..29. */
  ghost function ApiRowHeatIndices2(k: nat): nat
    requires k < 10
  {
    match k
    case 0 => 16
    case 1 => 17
    case 2 => 18
    case 3 => 19
    case 4 => 20
    case 5 => 21
    case 6 => 22
    case 7 => 23
    case 8 => 24
    case _ => 25
  }

  /** Witnesses for rows 30..39. */
  ghost function ApiRowHeatIndices3(k: nat): nat
    requires k < 10
  {
    match k
    case 0 => 26
    case 1 => 27
    case 2 => 28
    case 3 => 29
    case 4 => 30
    case 5 => 31
    case 6 => 32
    case 7 => 33
    case 8 => 34
    case _ => 35
  }

  /** Witnesses for rows 40..49. */
  ghost function ApiRowHeatIndices4(k: nat): nat
    requires k < 10
  {
    match k
    case 0 => 37
    case 1 => 38
    case 2 => 39
    case 3 => 40
    case 4 => 43
    case 5 => 44
    case 6 => 45
    case 7 => 46
    case 8 => 47
    case _ => 48
  }

  /** Witnesses for rows 50..59. */
  ghost function ApiRowHeatIndices5(k: nat): nat
    requires k < 10
  {
    match k
    case 0 => 49
    case 1 => 50
    case 2 => 51
    case 3 => 52
    case 4 => 53
    case 5 => 54
    case 6 => 55
    case 7 => 56
    case 8 => 57
    case _ => 58
  }

  /** Witnesses for rows 60..69. */
  ghost function ApiRowHeatIndices6(k: nat): nat
    requires k < 10
  {
    match k
    case 0 => 59
    case 1 => 60
    case 2 => 61
    case 3 => 62
    case 4 => 64
    case 5 => 65
    case 6 => 66
    case 7 => 67
    case 8 => 68
    case _ => 69
  }

  /** Witnesses for rows 70..79. */
  ghost function ApiRowHeatIndices7(k: nat): nat
    requires k < 10
  {
    match k
    case 0 => 70
    case 1 => 71
    case 2 => 72
    case 3 => 73
    case 4 => 74
    case 5 => 75
    case 6 => 76
    case 7 => 77
    case 8 => 78
    case _ => 79
  }

  /** Witnesses for rows 80..82. */
  ghost function ApiRowHeatIndices8(k: nat): nat
    requires k < 3
  {
    match k
    case 0 => 80
    case 1 => 81
    case _ => 82
  }

  /** Witnesses for entries 0..9. */
  ghost function HeatRowApiIndices0(k: nat): nat
    requires k < 10
  {
    match k
    case 0 => 4
    case 1 => 5
    case 2 => 6
    case 3 => 7
    case 4 => 8
    case 5 => 9
    case 6 => 10
    case 7 => 11
    case 8 => 12
    case _ => 13
  }

  /** Witnesses for entries 10..19. */
  ghost function HeatRowApiIndices1(k: nat): nat
    requires k < 10
  {
    match k
    case 0 => 14
    case 1 => 15
    case 2 => 16
    case 3 => 17
    case 4 => 18
    case 5 => 19
    case 6 => 20
    case 7 => 21
    case 8 => 22
    case _ => 23
  }

  /** Witnesses for entries 20..29. */
  ghost function HeatRowApiIndices2(k: nat): nat
    requires k < 10
  {
    match k
    case 0 => 24
    case 1 => 25
    case 2 => 26
    case 3 => 27
    case 4 => 28
    case 5 => 29
    case 6 => 30
    case 7 => 31
    case 8 => 32
    case _ => 33
  }

  /** Witnesses for entries 30..39. */
  ghost function HeatRowApiIndices3(k: nat): nat
    requires k < 10
  {
    match k
    case 0 => 34
    case 1 => 35
    case 2 => 36
    case 3 => 37
    case 4 => 38
    case 5 => 39
    case 6 => 3
    case 7 => 40
    case 8 => 41
    case _ => 42
  }

  /** Witnesses for entries 40..49. */
  ghost function HeatRowApiIndices4(k: nat): nat
    requires k < 10
  {
    match k
    case 0 => 43
    case 1 => 2
    case 2 => 0
    case 3 => 44
    case 4 => 45
    case 5 => 46
    case 6 => 47
    case 7 => 48
    case 8 => 49
    case _ => 50
  }

  /** Witnesses for entries 50..59. */
  ghost function HeatRowApiIndices5(k: nat): nat
    requires k < 10
  {
    match k
    case 0 => 51
    case 1 => 52
    case 2 => 53
    case 3 => 54
    case 4 => 55
    case 5 => 56
    case 6 => 57
    case 7 => 58
    case 8 => 59
    case _ => 60
  }

  /** Witnesses for entries 60..69. */
  ghost function HeatRowApiIndices6(k: nat): nat
    requires k < 10
  {
    match k
    case 0 => 61
    case 1 => 62
    case 2 => 63
    case 3 => 1
    case 4 => 64
    case 5 => 65
    case 6 => 66
    case 7 => 67
    case 8 => 68
    case _ => 69
  }

  /** Witnesses for entries 70..79. */
  ghost function HeatRowApiIndices7(k: nat): nat
    requires k < 10
  {
    match k
    case 0 => 70
    case 1 => 71
    case 2 => 72
    case 3 => 73
    case 4 => 74
    case 5 => 75
    case 6 => 76
    case 7 => 77
    case 8 => 78
    case _ => 79
  }

  /** Witnesses for entries 80..82. */
  ghost function HeatRowApiIndices8(k: nat): nat
    requires k < 3
  {
    match k
    case 0 => 80
    case 1 => 81
    case _ => 82
  }

  lemma ApiRowAligned0(j: nat)
    requires 0 <= j < 5
    ensures ApiRowHeatIndex(j) < 83
    ensures ApiRow(j) == NameCode(HeatRow(ApiRowHeatIndex(j)).name, HeatRow(ApiRowHeatIndex(j)).id)
  {}

  lemma ApiRowAligned5(j: nat)
    requires 5 <= j < 10
    ensures ApiRowHeatIndex(j) < 83
    ensures ApiRow(j) == NameCode(HeatRow(ApiRowHeatIndex(j)).name, HeatRow(ApiRowHeatIndex(j)).id)
  {}

  lemma ApiRowAligned10(j: nat)
    requires 10 <= j < 15
    ensures ApiRowHeatIndex(j) < 83
    ensures ApiRow(j) == NameCode(HeatRow(ApiRowHeatIndex(j)).name, HeatRow(ApiRowHeatIndex(j)).id)
  {}

  lemma ApiRowAligned15(j: nat)
    requires 15 <= j < 20
    ensures ApiRowHeatIndex(j) < 83
    ensures ApiRow(j) == NameCode(HeatRow(ApiRowHeatIndex(j)).name, HeatRow(ApiRowHeatIndex(j)).id)
  {}

  lemma ApiRowAligned20(j: nat)
    requires 20 <= j < 25
    ensures ApiRowHeatIndex(j) < 83
    ensures ApiRow(j) == NameCode(HeatRow(ApiRowHeatIndex(j)).name, HeatRow(ApiRowHeatIndex(j)).id)
  {}

  lemma ApiRowAligned25(j: nat)
    requires 25 <= j < 30
    ensures ApiRowHeatIndex(j) < 83
    ensures ApiRow(j) == NameCode(HeatRow(ApiRowHeatIndex(j)).name, HeatRow(ApiRowHeatIndex(j)).id)
  {}

  lemma ApiRowAligned30(j: nat)
    requires 30 <= j < 35
    ensures ApiRowHeatIndex(j) < 83
    ensures ApiRow(j) == NameCode(HeatRow(ApiRowHeatIndex(j)).name, HeatRow(ApiRowHeatIndex(j)).id)
  {}

  lemma ApiRowAligned35(j: nat)
    requires 35 <= j < 40
    ensures ApiRowHeatIndex(j) < 83
    ensures ApiRow(j) == NameCode(HeatRow(ApiRowHeatIndex(j)).name, HeatRow(ApiRowHeatIndex(j)).id)
  {}

  lemma ApiRowAligned40(j: nat)
    requires 40 <= j < 45
    ensures ApiRowHeatIndex(j) < 83
    ensures ApiRow(j) == NameCode(HeatRow(ApiRowHeatIndex(j)).name, HeatRow(ApiRowHeatIndex(j)).id)
  {}

  lemma ApiRowAligned45(j: nat)
    requires 45 <= j < 50
    ensures ApiRowHeatIndex(j) < 83
    ensures ApiRow(j) == NameCode(HeatRow(ApiRowHeatIndex(j)).name, HeatRow(ApiRowHeatIndex(j)).id)
  {}

  lemma ApiRowAligned50(j: nat)
    requires 50 <= j < 55
    ensures ApiRowHeatIndex(j) < 83
    ensures ApiRow(j) == NameCode(HeatRow(ApiRowHeatIndex(j)).name, HeatRow(ApiRowHeatIndex(j)).id)
  {}

  lemma ApiRowAligned55(j: nat)
    requires 55 <= j < 60
    ensures ApiRowHeatIndex(j) < 83
    ensures ApiRow(j) == NameCode(HeatRow(ApiRowHeatIndex(j)).name, HeatRow(ApiRowHeatIndex(j)).id)
  {}

  lemma ApiRowAligned60(j: nat)
    requires 60 <= j < 65
    ensures ApiRowHeatIndex(j) < 83
    ensures ApiRow(j) == NameCode(HeatRow(ApiRowHeatIndex(j)).name, HeatRow(ApiRowHeatIndex(j)).id)
  {}

  lemma ApiRowAligned65(j: nat)
    requires 65 <= j < 70
    ensures ApiRowHeatIndex(j) < 83
    ensures ApiRow(j) == NameCode(HeatRow(ApiRowHeatIndex(j)).name, HeatRow(ApiRowHeatIndex(j)).id)
  {}

  lemma ApiRowAligned70(j: nat)
    requires 70 <= j < 75
    ensures ApiRowHeatIndex(j) < 83
    ensures ApiRow(j) == NameCode(HeatRow(ApiRowHeatIndex(j)).name, HeatRow(ApiRowHeatIndex(j)).id)
  {}

  lemma ApiRowAligned75(j: nat)
    requires 75 <= j < 80
    ensures ApiRowHeatIndex(j) < 83
    ensures ApiRow(j) == NameCode(HeatRow(ApiRowHeatIndex(j)).name, HeatRow(ApiRowHeatIndex(j)).id)
  {}

  lemma ApiRowAligned80(j: nat)
    requires 80 <= j < 83
    ensures ApiRowHeatIndex(j) < 83
    ensures ApiRow(j) == NameCode(HeatRow(ApiRowHeatIndex(j)).name, HeatRow(ApiRowHeatIndex(j)).id)
  {}

  lemma HeatRowAligned0(i: nat)
    requires 0 <= i < 5
    ensures HeatRowApiIndex(i) < 83
    ensures ApiRow(HeatRowApiIndex(i)) == NameCode(HeatRow(i).name, HeatRow(i).id)
  {}

  lemma HeatRowAligned5(i: nat)
    requires 5 <= i < 10
    ensures HeatRowApiIndex(i) < 83
    ensures ApiRow(HeatRowApiIndex(i)) == NameCode(HeatRow(i).name, HeatRow(i).id)
  {}

  lemma HeatRowAligned10(i: nat)
    requires 10 <= i < 15
    ensures HeatRowApiIndex(i) < 83
    ensures ApiRow(HeatRowApiIndex(i)) == NameCode(HeatRow(i).name, HeatRow(i).id)
  {}

  lemma HeatRowAligned15(i: nat)
    requires 15 <= i < 20
    ensures HeatRowApiIndex(i) < 83
    ensures ApiRow(HeatRowApiIndex(i)) == NameCode(HeatRow(i).name, HeatRow(i).id)
  {}

  lemma HeatRowAligned20(i: nat)
    requires 20 <= i < 25
    ensures HeatRowApiIndex(i) < 83
    ensures ApiRow(HeatRowApiIndex(i)) == NameCode(HeatRow(i).name, HeatRow(i).id)
  {}

  lemma HeatRowAligned25(i: nat)
    requires 25 <= i < 30
    ensures HeatRowApiIndex(i) < 83
    ensures ApiRow(HeatRowApiIndex(i)) == NameCode(HeatRow(i).name, HeatRow(i).id)
  {}

  lemma HeatRowAligned30(i: nat)
    requires 30 <= i < 35
    ensures HeatRowApiIndex(i) < 83
    ensures ApiRow(HeatRowApiIndex(i)) == NameCode(HeatRow(i).name, HeatRow(i).id)
  {}

  lemma HeatRowAligned35(i: nat)
    requires 35 <= i < 40
    ensures HeatRowApiIndex(i) < 83
    ensures ApiRow(HeatRowApiIndex(i)) == NameCode(HeatRow(i).name, HeatRow(i).id)
  {}

  lemma HeatRowAligned40(i: nat)
    requires 40 <= i < 45
    ensures HeatRowApiIndex(i) < 83
    ensures ApiRow(HeatRowApiIndex(i)) == NameCode(HeatRow(i).name, HeatRow(i).id)
  {}

  lemma HeatRowAligned45(i: nat)
    requires 45 <= i < 50
    ensures HeatRowApiIndex(i) < 83
    ensures ApiRow(HeatRowApiIndex(i)) == NameCode(HeatRow(i).name, HeatRow(i).id)
  {}

  lemma HeatRowAligned50(i: nat)
    requires 50 <= i < 55
    ensures HeatRowApiIndex(i) < 83
    ensures ApiRow(HeatRowApiIndex(i)) == NameCode(HeatRow(i).name, HeatRow(i).id)
  {}

  lemma HeatRowAligned55(i: nat)
    requires 55 <= i < 60
    ensures HeatRowApiIndex(i) < 83
    ensures ApiRow(HeatRowApiIndex(i)) == NameCode(HeatRow(i).name, HeatRow(i).id)
  {}

  lemma HeatRowAligned60(i: nat)
    requires 60 <= i < 65
    ensures HeatRowApiIndex(i) < 83
    ensures ApiRow(HeatRowApiIndex(i)) == NameCode(HeatRow(i).name, HeatRow(i).id)
  {}

  lemma HeatRowAligned65(i: nat)
    requires 65 <= i < 70
    ensures HeatRowApiIndex(i) < 83
    ensures ApiRow(HeatRowApiIndex(i)) == NameCode(HeatRow(i).name, HeatRow(i).id)
  {}

  lemma HeatRowAligned70(i: nat)
    requires 70 <= i < 75
    ensures HeatRowApiIndex(i) < 83
    ensures ApiRow(HeatRowApiIndex(i)) == NameCode(HeatRow(i).name, HeatRow(i).id)
  {}

  lemma HeatRowAligned75(i: nat)
    requires 75 <= i < 80
    ensures HeatRowApiIndex(i) < 83
    ensures ApiRow(HeatRowApiIndex(i)) == NameCode(HeatRow(i).name, HeatRow(i).id)
  {}

  lemma HeatRowAligned80(i: nat)
    requires 80 <= i < 83
    ensures HeatRowApiIndex(i) < 83
    ensures ApiRow(HeatRowApiIndex(i)) == NameCode(HeatRow(i).name, HeatRow(i).id)
  {}

  lemma HeatRowShaped0(i: nat)
    requires 0 <= i < 5
    ensures StartsWith(HeatRow(i).id, "RU-")
    ensures |HeatRow(i).name| > 0 && HeatRow(i).name[0] >= '\U{0400}' && HeatRow(i).name[0] <= '\U{04FF}'
    ensures HeatRow(i).color != HighlightFill && HeatRow(i).color != HoverFill && HeatRow(i).color != NoDataFill
  {}

  lemma HeatRowShaped5(i: nat)
    requires 5 <= i < 10
    ensures StartsWith(HeatRow(i).id, "RU-")
    ensures |HeatRow(i).name| > 0 && HeatRow(i).name[0] >= '\U{0400}' && HeatRow(i).name[0] <= '\U{04FF}'
    ensures HeatRow(i).color != HighlightFill && HeatRow(i).color != HoverFill && HeatRow(i).color != NoDataFill
  {}

  lemma HeatRowShaped10(i: nat)
    requires 10 <= i < 15
    ensures StartsWith(HeatRow(i).id, "RU-")
    ensures |HeatRow(i).name| > 0 && HeatRow(i).name[0] >= '\U{0400}' && HeatRow(i).name[0] <= '\U{04FF}'
    ensures HeatRow(i).color != HighlightFill && HeatRow(i).color != HoverFill && HeatRow(i).color != NoDataFill
  {}

  lemma HeatRowShaped15(i: nat)
    requires 15 <= i < 20
    ensures StartsWith(HeatRow(i).id, "RU-")
    ensures |HeatRow(i).name| > 0 && HeatRow(i).name[0] >= '\U{0400}' && HeatRow(i).name[0] <= '\U{04FF}'
    ensures HeatRow(i).color != HighlightFill && HeatRow(i).color != HoverFill && HeatRow(i).color != NoDataFill
  {}

  lemma HeatRowShaped20(i: nat)
    requires 20 <= i < 25
    ensures StartsWith(HeatRow(i).id, "RU-")
    ensures |HeatRow(i).name| > 0 && HeatRow(i).name[0] >= '\U{0400}' && HeatRow(i).name[0] <= '\U{04FF}'
    ensures HeatRow(i).color != HighlightFill && HeatRow(i).color != HoverFill && HeatRow(i).color != NoDataFill
  {}

  lemma HeatRowShaped25(i: nat)
    requires 25 <= i < 30
    ensures StartsWith(HeatRow(i).id, "RU-")
    ensures |HeatRow(i).name| > 0 && HeatRow(i).name[0] >= '\U{0400}' && HeatRow(i).name[0] <= '\U{04FF}'
    ensures HeatRow(i).color != HighlightFill && HeatRow(i).color != HoverFill && HeatRow(i).color != NoDataFill
  {}

  lemma HeatRowShaped30(i: nat)
    requires 30 <= i < 35
    ensures StartsWith(HeatRow(i).id, "RU-")
    ensures |HeatRow(i).name| > 0 && HeatRow(i).name[0] >= '\U{0400}' && HeatRow(i).name[0] <= '\U{04FF}'
    ensures HeatRow(i).color != HighlightFill && HeatRow(i).color != HoverFill && HeatRow(i).color != NoDataFill
  {}

  lemma HeatRowShaped35(i: nat)
    requires 35 <= i < 40
    ensures StartsWith(HeatRow(i).id, "RU-")
    ensures |HeatRow(i).name| > 0 && HeatRow(i).name[0] >= '\U{0400}' && HeatRow(i).name[0] <= '\U{04FF}'
    ensures HeatRow(i).color != HighlightFill && HeatRow(i).color != HoverFill && HeatRow(i).color != NoDataFill
  {}

  lemma HeatRowShaped40(i: nat)
    requires 40 <= i < 45
    ensures StartsWith(HeatRow(i).id, "RU-")
    ensures |HeatRow(i).name| > 0 && HeatRow(i).name[0] >= '\U{0400}' && HeatRow(i).name[0] <= '\U{04FF}'
    ensures HeatRow(i).color != HighlightFill && HeatRow(i).color != HoverFill && HeatRow(i).color != NoDataFill
  {}

  lemma HeatRowShaped45(i: nat)
    requires 45 <= i < 50
    ensures StartsWith(HeatRow(i).id, "RU-")
    ensures |HeatRow(i).name| > 0 && HeatRow(i).name[0] >= '\U{0400}' && HeatRow(i).name[0] <= '\U{04FF}'
    ensures HeatRow(i).color != HighlightFill && HeatRow(i).color != HoverFill && HeatRow(i).color != NoDataFill
  {}

  lemma HeatRowShaped50(i: nat)
    requires 50 <= i < 55
    ensures StartsWith(HeatRow(i).id, "RU-")
    ensures |HeatRow(i).name| > 0 && HeatRow(i).name[0] >= '\U{0400}' && HeatRow(i).name[0] <= '\U{04FF}'
    ensures HeatRow(i).color != HighlightFill && HeatRow(i).color != HoverFill && HeatRow(i).color != NoDataFill
  {}

  lemma HeatRowShaped55(i: nat)
    requires 55 <= i < 60
    ensures StartsWith(HeatRow(i).id, "RU-")
    ensures |HeatRow(i).name| > 0 && HeatRow(i).name[0] >= '\U{0400}' && HeatRow(i).name[0] <= '\U{04FF}'
    ensures HeatRow(i).color != HighlightFill && HeatRow(i).color != HoverFill && HeatRow(i).color != NoDataFill
  {}

  lemma HeatRowShaped60(i: nat)
    requires 60 <= i < 65
    ensures StartsWith(HeatRow(i).id, "RU-")
    ensures |HeatRow(i).name| > 0 && HeatRow(i).name[0] >= '\U{0400}' && HeatRow(i).name[0] <= '\U{04FF}'
    ensures HeatRow(i).color != HighlightFill && HeatRow(i).color != HoverFill && HeatRow(i).color != NoDataFill
  {}

  lemma HeatRowShaped65(i: nat)
    requires 65 <= i < 70
    ensures StartsWith(HeatRow(i).id, "RU-")
    ensures |HeatRow(i).name| > 0 && HeatRow(i).name[0] >= '\U{0400}' && HeatRow(i).name[0] <= '\U{04FF}'
    ensures HeatRow(i).color != HighlightFill && HeatRow(i).color != HoverFill && HeatRow(i).color != NoDataFill
  {}

  lemma HeatRowShaped70(i: nat)
    requires 70 <= i < 75
    ensures StartsWith(HeatRow(i).id, "RU-")
    ensures |HeatRow(i).name| > 0 && HeatRow(i).name[0] >= '\U{0400}' && HeatRow(i).name[0] <= '\U{04FF}'
    ensures HeatRow(i).color != HighlightFill && HeatRow(i).color != HoverFill && HeatRow(i).color != NoDataFill
  {}

  lemma HeatRowShaped75(i: nat)
    requires 75 <= i < 80
    ensures StartsWith(HeatRow(i).id, "RU-")
    ensures |HeatRow(i).name| > 0 && HeatRow(i).name[0] >= '\U{0400}' && HeatRow(i).name[0] <= '\U{04FF}'
    ensures HeatRow(i).color != HighlightFill && HeatRow(i).color != HoverFill && HeatRow(i).color != NoDataFill
  {}

  lemma HeatRowShaped80(i: nat)
    requires 80 <= i < 83
    ensures StartsWith(HeatRow(i).id, "RU-")
    ensures |HeatRow(i).name| > 0 && HeatRow(i).name[0] >= '\U{0400}' && HeatRow(i).name[0] <= '\U{04FF}'
    ensures HeatRow(i).color != HighlightFill && HeatRow(i).color != HoverFill && HeatRow(i).color != NoDataFill
  {}

  /** Every row of `regionMap` pairs a name and a code exactly as some `regionsData` entry does. */
  lemma ApiRowIsHeatEntry(j: nat)
    requires j < 83
    ensures ApiRowHeatIndex(j) < 83
    ensures ApiRow(j) == NameCode(HeatRow(ApiRowHeatIndex(j)).name, HeatRow(ApiRowHeatIndex(j)).id)
  {
    if j < 5 { ApiRowAligned0(j); }
    else if j < 10 { ApiRowAligned5(j); }
    else if j < 15 { ApiRowAligned10(j); }
    else if j < 20 { ApiRowAligned15(j); }
    else if j < 25 { ApiRowAligned20(j); }
    else if j < 30 { ApiRowAligned25(j); }
    else if j < 35 { ApiRowAligned30(j); }
    else if j < 40 { ApiRowAligned35(j); }
    else if j < 45 { ApiRowAligned40(j); }
    else if j < 50 { ApiRowAligned45(j); }
    else if j < 55 { ApiRowAligned50(j); }
    else if j < 60 { ApiRowAligned55(j); }
    else if j < 65 { ApiRowAligned60(j); }
    else if j < 70 { ApiRowAligned65(j); }
    else if j < 75 { ApiRowAligned70(j); }
    else if j < 80 { ApiRowAligned75(j); }
    else if j < 83 { ApiRowAligned80(j); }
  }

  /** Every `regionsData` entry appears, with the same name and code, as a row of `regionMap`. */
  lemma HeatRowIsApiEntry(i: nat)
    requires i < 83
    ensures HeatRowApiIndex(i) < 83
    ensures ApiRow(HeatRowApiIndex(i)) == NameCode(HeatRow(i).name, HeatRow(i).id)
  {
    if i < 5 { HeatRowAligned0(i); }
    else if i < 10 { HeatRowAligned5(i); }
    else if i < 15 { HeatRowAligned10(i); }
    else if i < 20 { HeatRowAligned15(i); }
    else if i < 25 { HeatRowAligned20(i); }
    else if i < 30 { HeatRowAligned25(i); }
    else if i < 35 { HeatRowAligned30(i); }
    else if i < 40 { HeatRowAligned35(i); }
    else if i < 45 { HeatRowAligned40(i); }
    else if i < 50 { HeatRowAligned45(i); }
    else if i < 55 { HeatRowAligned50(i); }
    else if i < 60 { HeatRowAligned55(i); }
    else if i < 65 { HeatRowAligned60(i); }
    else if i < 70 { HeatRowAligned65(i); }
    else if i < 75 { HeatRowAligned70(i); }
    else if i < 80 { HeatRowAligned75(i); }
    else if i < 83 { HeatRowAligned80(i); }
  }

  /**
   * Every heatmap code is an ISO 3166-2:RU code, every name starts with a character of the
   * Cyrillic block (U+0400 to U+04FF), and no data colour is one of the colours the map uses for
   * highlight, hover or missing data.
   */
  lemma HeatRowIsRussianRegion(i: nat)
    requires i < 83
    ensures StartsWith(HeatRow(i).id, "RU-")
    ensures |HeatRow(i).name| > 0 && HeatRow(i).name[0] >= '\U{0400}' && HeatRow(i).name[0] <= '\U{04FF}'
    ensures HeatRow(i).color != HighlightFill && HeatRow(i).color != HoverFill && HeatRow(i).color != NoDataFill
  {
    if i < 5 { HeatRowShaped0(i); }
    else if i < 10 { HeatRowShaped5(i); }
    else if i < 15 { HeatRowShaped10(i); }
    else if i < 20 { HeatRowShaped15(i); }
    else if i < 25 { HeatRowShaped20(i); }
    else if i < 30 { HeatRowShaped25(i); }
    else if i < 35 { HeatRowShaped30(i); }
    else if i < 40 { HeatRowShaped35(i); }
    else if i < 45 { HeatRowShaped40(i); }
    else if i < 50 { HeatRowShaped45(i); }
    else if i < 55 { HeatRowShaped50(i); }
    else if i < 60 { HeatRowShaped55(i); }
    else if i < 65 { HeatRowShaped60(i); }
    else if i < 70 { HeatRowShaped65(i); }
    else if i < 75 { HeatRowShaped70(i); }
    else if i < 80 { HeatRowShaped75(i); }
    else if i < 83 { HeatRowShaped80(i); }
  }

  /**
   * An entry the heatmap finds under a code is an entry of the table with that code, its code
   * is an ISO 3166-2:RU code and its colour is distinct from the highlight, hover and no-data colours.
   */
  lemma FoundEntryIsRegion(id: string)
    ensures Find(RegionsData(), id).Some? ==>
              var d := Find(RegionsData(), id).value;
              d.id == id && StartsWith(id, "RU-")
              && d.color != HighlightFill && d.color != HoverFill && d.color != NoDataFill
  {
    var r := Find(RegionsData(), id);
    if r.Some? {
      var i :| 0 <= i < 83 && RegionsData()[i] == r.value;
      HeatRowIsRussianRegion(i);
    }
  }

  /**
   * A code `getRegionCode` returns is a key of the heatmap's table, so the map can style the
   * region, and some entry under that key carries the name that was looked up.
   */
  lemma RegionCodeIsHeatKey(name: string)
    ensures RegionCode(name).Some? ==>
              var code := RegionCode(name).value;
              StartsWith(code, "RU-") && Find(RegionsData(), code).Some?
              && exists i :: 0 <= i < 83 && HeatRow(i).id == code && HeatRow(i).name == name
  {
    if RegionCode(name).Some? {
      var code := RegionCode(name).value;
      var j :| 0 <= j < 83 && ApiRow(j) == NameCode(name, code);
      ApiRowIsHeatEntry(j);
      var i := ApiRowHeatIndex(j);
      HeatRowIsRussianRegion(i);
      assert RegionsData()[i].id == code;
    }
  }

  /** `getRegionCode` knows a name exactly when the heatmap has an entry under that name. */
  lemma RegionCodeDefinedIffHeatName(name: string)
    ensures RegionCode(name).Some? <==> exists i :: 0 <= i < 83 && HeatRow(i).name == name
  {
    if RegionCode(name).Some? {
      RegionCodeIsHeatKey(name);
    } else {
      forall i | 0 <= i < 83 ensures HeatRow(i).name != name {
        HeatRowIsApiEntry(i);
      }
    }
  }

  /** What reading a property of a plain JavaScript object yields. */
  datatype JsLookup = OwnValue(code: string) | InheritedMember(member: string) | Absent

  /**
   * The properties every plain object inherits from `Object.prototype` (section 20.1.3 of
   * ECMAScript 2024, with the legacy accessors of its Annex B.2.2).
   */
  function ObjectPrototypeMembers(): set<string> {
    {"constructor", "hasOwnProperty", "isPrototypeOf", "propertyIsEnumerable", "toLocaleString",
     "toString", "valueOf", "__proto__", "__defineGetter__", "__defineSetter__",
     "__lookupGetter__", "__lookupSetter__"}
  }

  /** Every inherited member's name starts with an ASCII character, unlike every region name. */
  lemma PrototypeMemberStartsAscii(name: string)
    requires name in ObjectPrototypeMembers()
    ensures |name| > 0 && name[0] < '\U{0400}'
  {
  }

  /**
   * `getRegionCode` as written: `regionMap[regionName] || null` on a plain object literal.
   * An own row wins; otherwise a name of an inherited member yields that member (a function
   * or the prototype object, both truthy, so `|| null` keeps it); otherwise `null`.
   */
  function RegionCodeAsWritten(name: string): (r: JsLookup)
    ensures r.OwnValue? ==> exists j :: 0 <= j < 83 && ApiRow(j) == NameCode(name, r.code)
    ensures r.InheritedMember? ==> r.member == name && name in ObjectPrototypeMembers()
    ensures r.Absent? ==> forall j :: 0 <= j < 83 ==> ApiRow(j).name != name
  {
    var k := LastIndexOf(RegionMap(), (row: NameCode) => row.name, name);
    assert forall j :: 0 <= j < 83 ==> RegionMap()[j] == ApiRow(j);
    if k >= 0 then OwnValue(RegionMap()[k].code)
    else if name in ObjectPrototypeMembers() then InheritedMember(name)
    else Absent
  }

  /** Away from the inherited member names the lookup as written agrees with `RegionCode`. */
  lemma AsWrittenAgreesOffPrototype(name: string)
    requires name !in ObjectPrototypeMembers()
    ensures RegionCodeAsWritten(name) == (match RegionCode(name)
                                          case Some(code) => OwnValue(code)
                                          case None => Absent)
  {
  }

  /**
   * No region is named after an inherited member, yet the lookup as written returns that
   * member for such a name where the intended lookup returns `null`.
   */
  lemma PrototypeNameIsNotARegion(name: string)
    requires name in ObjectPrototypeMembers()
    ensures RegionCode(name).None?
    ensures RegionCodeAsWritten(name) == InheritedMember(name)
  {
    PrototypeMemberStartsAscii(name);
    forall j | 0 <= j < 83 ensures ApiRow(j).name != name {
      ApiRowIsHeatEntry(j);
      HeatRowIsRussianRegion(ApiRowHeatIndex(j));
    }
  }
}

=== FILE: text.dfy ===
/**
 * String helpers with the semantics of the JavaScript built-ins the front-end uses:
 * `String.prototype.trim`, `startsWith`, `split(c)[0]` and decimal rendering of a
 * non-negative integer inside a template literal.
 */
module Text {

  /** `s.startsWith(prefix)`. */
  predicate StartsWith(s: string, prefix: string) {
    |prefix| <= |s| && s[..|prefix|] == prefix
  }

  /**
   * The characters `String.prototype.trim` removes: the ECMAScript WhiteSpace set
   * (tab, vertical tab, form feed, space, no-break space, byte order mark and the
   * Unicode space separators) and the LineTerminator set (LF, CR, LS, PS).
   */
  predicate IsWhitespace(c: char) {
    || c == '\t' || c == '\U{000B}' || c == '\U{000C}' || c == ' '
    || c == '\U{00A0}' || c == '\U{FEFF}'
    || c == '\U{1680}' || ('\U{2000}' <= c <= '\U{200A}')
    || c == '\U{202F}' || c == '\U{205F}' || c == '\U{3000}'
    || c == '\n' || c == '\r' || c == '\U{2028}' || c == '\U{2029}'
  }

  /** Every character of `s` is whitespace (the empty string included). */
  predicate IsBlank(s: string) {
    forall i :: 0 <= i < |s| ==> IsWhitespace(s[i])
  }

  /** The number of whitespace characters `s` starts with. */
  function LeadingBlanks(s: string): (n: nat)
    ensures n <= |s|
    ensures forall i :: 0 <= i < n ==> IsWhitespace(s[i])
    ensures n < |s| ==> !IsWhitespace(s[n])
  {
    if |s| > 0 && IsWhitespace(s[0]) then 1 + LeadingBlanks(s[1..]) else 0
  }

  /** The length of `s` without the whitespace it ends with. */
  function VisibleEnd(s: string): (n: nat)
    ensures n <= |s|
    ensures forall i :: n <= i < |s| ==> IsWhitespace(s[i])
    ensures n > 0 ==> !IsWhitespace(s[n - 1])
  {
    if |s| > 0 && IsWhitespace(s[|s| - 1]) then VisibleEnd(s[..|s| - 1]) else |s|
  }

  /**
   * `s.trim()`: the slice of `s` that starts after its leading whitespace, such that every
   * character outside the slice is whitespace and the slice neither starts nor ends with one.
   */
  function Trim(s: string): (r: string)
    ensures LeadingBlanks(s) + |r| <= |s| && r == s[LeadingBlanks(s)..LeadingBlanks(s) + |r|]
    ensures forall i :: 0 <= i < |s| && !(LeadingBlanks(s) <= i < LeadingBlanks(s) + |r|) ==> IsWhitespace(s[i])
    ensures |r| > 0 ==> !IsWhitespace(r[0]) && !IsWhitespace(r[|r| - 1])
  {
    var lo := LeadingBlanks(s);
    var hi := VisibleEnd(s);
    if lo < hi then s[lo..hi] else ""
  }

  /** Trimming yields the empty string exactly when the input has no visible character. */
  lemma TrimEmptyIffBlank(s: string)
    ensures Trim(s) == "" <==> IsBlank(s)
  {
    var r := Trim(s);
    if r != "" {
      assert s[LeadingBlanks(s)] == r[0];
    }
  }

  /** Trimming twice is the same as trimming once. */
  lemma TrimIdempotent(s: string)
    ensures Trim(Trim(s)) == Trim(s)
  {
    var r := Trim(s);
    if |r| > 0 {
      assert LeadingBlanks(r) == 0;
      assert VisibleEnd(r) == |r|;
    }
  }

  /** `s.split(c)[0]`: the longest prefix of `s` that does not contain `c`. */
  function BeforeFirst(s: string, c: char): (r: string)
    ensures r <= s
    ensures c !in r
    ensures |r| < |s| ==> s[|r|] == c
  {
    if |s| == 0 || s[0] == c then "" else [s[0]] + BeforeFirst(s[1..], c)
  }

  predicate IsDigit(c: char) {
    '0' <= c <= '9'
  }

  predicate IsDigits(s: string) {
    forall i :: 0 <= i < |s| ==> IsDigit(s[i])
  }

  function DigitChar(d: nat): (c: char)
    requires d < 10
    ensures IsDigit(c) && (c as int) - ('0' as int) == d
  {
    (('0' as int) + d) as char
  }

  /** Decimal rendering of `n`, as a JavaScript template literal prints a non-negative integer. */
  function NatToString(n: nat): (r: string)
    ensures |r| > 0 && IsDigits(r)
    ensures r[0] == '0' ==> n == 0
  {
    if n < 10 then [DigitChar(n)] else NatToString(n / 10) + [DigitChar(n % 10)]
  }

  /** The value of a string of decimal digits. */
  function DigitsValue(s: string): nat
    requires IsDigits(s)
  {
    if |s| == 0 then 0
    else DigitsValue(s[..|s| - 1]) * 10 + ((s[|s| - 1] as int) - ('0' as int))
  }

  /** Reading back the decimal rendering of `n` gives `n`. */
  lemma {:induction false} DigitsValueOfNatToString(n: nat)
    ensures DigitsValue(NatToString(n)) == n
  {
    if n >= 10 {
      var r := NatToString(n);
      assert r[..|r| - 1] == NatToString(n / 10);
      DigitsValueOfNatToString(n / 10);
    }
  }

  /** Distinct numbers render as distinct strings. */
  lemma NatToStringInjective(a: nat, b: nat)
    ensures NatToString(a) == NatToString(b) ==> a == b
  {
    DigitsValueOfNatToString(a);
    DigitsValueOfNatToString(b);
  }
}

=== FILE: wrappers.dfy ===
/** Failure-compatible helper datatypes shared by the other modules. */
module Wrappers {

  /** An optional value: `None` stands for JavaScript's `null` / `undefined`. */
  datatype Option<+T> = None | Some(value: T)

  /** The settled state of a JavaScript promise: a value or a rejection with an error message. */
  datatype Outcome<+T> = Resolved(value: T) | Rejected(message: string)
}
